=== FILE: README.md ===
# edge-csrf in Dafny

A model of the core of edge-csrf, a double-submit-cookie CSRF protection
library for edge runtimes. The server keeps a random secret in a cookie.
Every response carries a fresh token: a random salt plus the SHA-1 digest of
secret and salt. A state-changing request must send a token back, in the
`x-csrf-token` header or in the body, and the token must verify against the
cookie's secret.

The model covers three generations of the same logic:

- **current**: `shared/src`;
- **intermediate**: `src/util.ts`, `src/config.ts`, the Next.js and SvelteKit
  adapters, and `src/lib/protect.ts`;
- **original JavaScript**: `util.js`, `config.js` and `index.js`.

Files, one concern each:

- `prelude.dfy`: bytes, `Option`, `Result`, `StartsWith`, map lookup.
- `base64.dfy`: base64 as in section 4 of RFC 4648 (`btoa`/`atob`), with its
  round-trip and canonicity laws.
- `codec.dfy`: the token codec.
  - `utoa`/`atou` in each generation's error convention.
  - `_createSalt`, `_hash`, `createToken`, and `verifyToken` with and without
    the length guard.
  - The comparison loops, forwards and backwards.
- `json.dfy`: the JavaScript values the extractor handles, plus the parsed
  request.
  - JSON, `undefined`, `File`, truthiness and `String(v)`.
  - The request: method, path, headers, form entries, JSON body and raw text.
- `extractor.dfy`: the three `getTokenString` generations and the form-key
  pattern `^(\d+_)*csrf_token$`.
- `config.dfy`: the three configuration generations.
  - The shared range check.
  - Typed option classes with partial overrides.
  - The untyped `mergeShallow`/`initConfig`.
- `pipeline.dfy`: the per-request decision all generations share.
  - Exclusion, then the cookie secret, then the method check, then
    verification, then issuing a token.
  - The protocol-level properties.
- `hosts.dfy`: each host's wrapper around that decision.
  - The `createCsrfProtect` closures (shared and `src/lib`).
  - The Next.js handler and middleware, and the SvelteKit handle.
  - The original `index.js` middleware.

SHA-1 is a parameter, `hash: HashFn`, whose only promise is a 20-byte output.
Randomness is also a parameter: `Entropy` holds the secret and salt bytes a
request would draw, and `CreateSalt` takes the `Math.random()` draws.
Cookies arrive as a `map<string, string>` jar. Bodies arrive already parsed.

## Model

| member | source | states |
|---|---|---|
| Base64.DecodeEncode | shared/src/util.ts:19-46 | decoding the encoding of any byte string gives it back |
| Base64.EncodeDecode | shared/src/util.ts:31-46 | any text that decodes is the encoding of what it decodes to (strict decoding accepts only canonical text) |
| Base64.DecodeIffEncoding | shared/src/util.ts:19-46 | `s` decodes to `b` exactly when `b` encodes to `s` |
| Base64.EncodeLength | shared/src/util.ts:19-25 | the encoding of `n` bytes has `4 * ceil(n / 3)` characters |
| Base64.EncodeAlphabet | shared/src/util.ts:19-25 | an encoding uses only alphabet characters and `=` |
| Base64.DecodedLength | shared/src/util.ts:31-46 | a decodable text is as long as the encoding of its bytes |
| Base64.ForeignCharacterRejected | shared/src/util.ts:34-41 | a character outside the alphabet and `=` makes decoding fail |
| Base64.KnownVectors | src/lib/util.test.ts:26-50 | `[0]` is `"AA=="` and `[1,2,3]` is `"AQID"`, both ways |
| Codec.Utoa | shared/src/util.ts:19-25 | `utoa(b)` decodes back to `b`, and its length is `4 * ceil(|b| / 3)` |
| Codec.Atou | shared/src/util.ts:31-46 | current `atou`: gives the unique `b` whose `utoa` is the text, else the empty sequence |
| Codec.AtouRaising | src/util.ts:33-38 | intermediate and original `atou`: defined exactly on the texts that are some `utoa(b)`, and then gives that `b` |
| Codec.AtouForeignCharacter | shared/src/util.ts:34-41 | current `atou` maps a text with a non-base64 character to no bytes instead of failing |
| Codec.AtouShortText | shared/src/protect.ts:65 | a text shorter than 32 characters decodes to fewer than 22 bytes |
| Codec.AtouKnownVectors | src/lib/util.test.ts:26-56 | `utoa` and `atou` on the vectors of the unit tests; an invalid string decodes to no bytes |
| Codec.CreateSalt | shared/src/util.ts:129-135 | `n` draws give `n` salt bytes, each the floor of `draw * 255`, so never 255 |
| Codec.Digest | shared/src/util.ts:143-149 | the digest of any secret and salt has SHA-1's 20 bytes, which fixes every token's length |
| Codec.CreateToken | shared/src/util.ts:156-176 | the token has `22 + n` bytes: byte 0 is 0, byte 1 is `n mod 256`, then the salt, then the digest of secret and salt |
| Codec.VerifyTokenCharacterisation | shared/src/util.ts:183-204 | `verifyToken` accepts exactly when the token has at least 22 bytes, has exactly `22 + t[1]` bytes, and ends with the digest of the secret and `t[2..2+t[1]]` |
| Codec.VerifyCreatedToken | shared/src/util.ts:156-204 | every token minted from a secret with a salt of at most 255 bytes verifies against that secret |
| Codec.AcceptedIffMinted | shared/src/util.ts:183-204 | a token is accepted iff it equals, from byte 1 on, a token minted from the secret |
| Codec.AlgorithmIdIgnored | shared/src/util.ts:183-204 | changing byte 0 never changes the verdict |
| Codec.UnguardedAgrees | util.js:93-113 | the original `verifyToken`, which has no length guard, gives the same verdict as the guarded one |
| Codec.DigestsMatch | shared/src/util.ts:196-203 | the early-exit loop reports equality exactly when the two byte strings are equal |
| Codec.DigestsMatchBackward | util.js:100-110 | the last-to-first loop reports equality exactly when the two byte strings are equal |
| Codec.CheckToken | src/util.ts:107-128 | step-by-step `verifyToken` accepts exactly the minted tokens |
| Codec.CheckTokenUnguarded | util.js:93-113 | step-by-step original `verifyToken` accepts exactly the minted tokens |
| Codec.UtoaBackward | util.js:14-19 | filling the binary string back to front still encodes the input |
| Codec.AtouBackward | util.js:24-30 | the back-to-front copy gives the raising `atou`, the inverse of `utoa` |
| Json.StringConvertsToItself | util.js:24-26 | `atob`'s `String` conversion leaves a string as it is |
| Http.ContentType | shared/src/util.ts:74 | a missing or empty content type reads as `text/plain` |
| Extractor.LeadingDigits | shared/src/util.ts:52 | the length of the maximal run of ASCII digits at the start |
| Extractor.IndexedKeyComplete | shared/src/util.ts:52-59 | every key of the form `(digits "_")* csrf_token` passes the key test |
| Extractor.IndexedKeySound | shared/src/util.ts:52-59 | every key that passes the key test has that form |
| Extractor.FirstMatch | shared/src/util.ts:54-58 | the position of the first form entry whose key matches; no earlier entry matches, and `None` means no entry matches |
| Extractor.FormLookup | src/util.ts:58 | a form value is found exactly when some entry's key matches |
| Extractor.GetTokenString | shared/src/util.ts:52-122 | without an override, a present header wins even if empty. An unparsable body selected by the content type, and nothing else besides the override, makes it fail. For a form, the first entry whose key is `(digits_)*csrf_token` decides: its text, or "" for a file or when no key matches. For JSON, a string `csrf_token` is returned, anything else gives "". For `text/plain`, the raw text is returned when it does not parse as a non-empty array or its first argument is `null`. A first argument that is a string, number or boolean is returned as it is. An object gives its truthy `csrf_token`, else "", and an array gives "". Any other content type gives the raw text |
| Extractor.GetTokenStringLegacy | src/util.ts:45-73 | header precedence. Without an override, it fails iff the url-encoded form or the JSON body selected by the content type is unparsable. For a url-encoded form, the first entry named exactly `csrf_token` decides: its text, or "" for a file or when there is none. For JSON, a string `csrf_token` is returned, anything else gives "". Every other content type, multipart included, gives the raw text |
| Extractor.GetTokenStringOriginal | util.js:35-59 | header precedence. Without an override, it fails iff the url-encoded form or the JSON body selected by the content type is unparsable or `null`. For a url-encoded form, it returns the first `csrf_token` entry as it is (a string or a file), or `null` without one. For JSON, it returns the `csrf_token` property whatever its type, or `undefined` when absent. Every other content type gives the raw text |
| Extractor.OverrideDecides | shared/src/util.ts:67 | in every generation a configured override's result is returned verbatim |
| Extractor.HeaderShadowsBody | shared/src/util.ts:70-71 | once the `x-csrf-token` header is present, the body and its content type are never read |
| Extractor.ExactKeyIsIndexed | src/util.ts:58 | a form with a plain `csrf_token` entry and no earlier indexed key is read the same by the current and intermediate extractors |
| Extractor.NonStringOnlyFromServerAction | shared/src/util.ts:92-121 | a non-string token comes from a `text/plain` JSON array whose first element is a number, a boolean, or an object holding the value |
| Extractor.HeaderScenario | src/lib/util.test.ts:60-68 | the header test case gives `my-token` |
| Extractor.FormScenarios | src/lib/util.test.ts:70-133 | the url-encoded and indexed server-action form test cases give `my-token` |
| Extractor.BodyScenarios | src/lib/util.test.ts:93-142 | the JSON, ld+json, other-type, missing-type and argument-array cases give `my-token` |
| ConfigRules.CheckLengths | shared/src/config.ts:73-80 | the constructor fails iff a length is outside 1..255; the salt length is checked first |
| SharedConfig.NewCookieOptions | shared/src/config.ts:4-24 | each of `domain`, `httpOnly`, `name`, `path`, `sameSite` and `secure` is the supplied value, or its default when omitted. `maxAge` and `partitioned` are exactly what was supplied, so undefined by default |
| SharedConfig.CookieOptionsMerge | shared/src/config.ts:4-24 | an empty partial gives the defaults; a full partial gives itself back |
| SharedConfig.NewTokenOptions | shared/src/config.ts:36-49 | `fieldName` defaults to `csrf_token`; `value` is the supplied function or undefined |
| SharedConfig.FieldNamePattern | shared/src/config.ts:47 | `_fieldNameRegex` accepts exactly `(digits "_")* ++ fieldName` |
| SharedConfig.NewConfig | shared/src/config.ts:54-82 | construction fails iff the resulting salt or secret length is outside 1..255, salt reported first. Each supplied top-level field, the lengths included, replaces its default. A supplied `cookie` or `token` becomes `new CookieOptions(...)` or `new TokenOptions(...)` of it, and an omitted one gives the default object |
| SharedConfig.ConfigOverrides | shared/src/config.test.ts:54-69 | a top-level, a nested cookie or a nested token override replaces that field and leaves every other default in place |
| SharedConfig.RebuildConfig | shared/src/config.ts:67-71 | building from a configuration's own fields gives it back exactly when it is valid |
| SharedConfig.ConfigDefaults | shared/src/config.ts:55-65 | defaults: no exclusions, GET/HEAD/OPTIONS ignored, salt 8, secret 18, cookie `_csrfSecret` on `/`, strict, secure, httpOnly |
| SharedConfig.ConfigLengthChecks | shared/src/config.test.ts:71-89 | a supplied salt or secret length throws exactly outside 1..255 |
| LegacyConfig.NewCookieOptions | src/config.ts:5-17 | each of `domain`, `httpOnly`, `name`, `path`, `sameSite` and `secure` is the supplied value, or its default when omitted; `maxAge` is exactly what was supplied |
| LegacyConfig.CookieOptionsMerge | src/config.ts:5-17 | an empty partial gives the defaults; a full partial gives itself back |
| LegacyConfig.NewTokenOptions | src/config.ts:19-26 | `responseHeader` defaults to `X-CSRF-Token`; `value` is the supplied function or undefined |
| LegacyConfig.NewConfig | src/config.ts:28-51 | fails iff a length is outside 1..255, salt first. Exclusions default to `/_next/`. `ignoreMethods` and the lengths are the supplied values, else their defaults. `cookie` and `token` are the nested constructors applied to the supplied partial options, or to empty ones |
| LegacyConfig.RebuildConfig | src/config.ts:36-40 | building from a configuration's own fields gives it back exactly when it is valid |
| LegacyConfig.ConfigDefaults | src/config.ts:5-34 | defaults: `/_next/` excluded, GET/HEAD/OPTIONS ignored, salt 8, secret 18, header `X-CSRF-Token` |
| OriginalConfig.MergeShallow | config.js:20-28 | the result has exactly the default keys; a supplied value wins over the default |
| OriginalConfig.MergeShallowDefaults | config.js:20-28 | no values give the defaults; merging is idempotent |
| OriginalConfig.MergeShallowLaws | config.js:20-28 | merging over a merge is one merge in which the later values win; keys outside the defaults never matter |
| OriginalConfig.InitConfig | config.js:33-51 | the result has the default keys. `ignoreMethods`, `saltByteLength` and `secretByteLength` are those of the shallow merge of the options over the defaults. `cookie` and `token` are merged one level deep. It throws iff a length compares outside 1..255, salt first |
| OriginalConfig.InitConfigDefaults | config.js:1-18 | no options give exactly the default configuration |
| OriginalConfig.NumericLengthChecks | test/config.test.js:15-33 | a numeric salt or secret length throws exactly outside 1..255 |
| OriginalConfig.NonNumericLengthAccepted | config.js:42-44 | a non-numeric length passes the check, because comparisons with `NaN` are false |
| OriginalConfig.CoercedLengthsRejected | config.js:42-44 | a numeric string compares as its number, and `null` as 0 |
| OriginalConfig.InitConfigWellTyped | config.js:33-51 | options of the default types build a configuration of the default types with valid lengths |
| OriginalConfig.OverrideOf | index.js:30 | a `null` token `value` means no override |
| Pipeline.Run | shared/src/protect.ts:41-73 | skipped iff an exclusion prefix matches. A cookie is set iff none was sent, and its value encodes the fresh secret. An issued token decodes to a token minted from the request's secret. A checked request is issued a token only after its submitted token verifies. It rejects iff a checked method's token is read and decoded but does not verify. It faults iff the secret cookie cannot be decoded, or a checked method's token cannot be read or decoded |
| Pipeline.EchoedTokenAccepted | shared/src/protect.ts:50-72 | a token issued for one request is accepted on a later request that echoes it, once the cookie that came with it is stored |
| Pipeline.IssuedTokenVerifies | shared/src/protect.ts:63-67 | an issued token sent in the header passes the check against its secret in every generation |
| Pipeline.ShortTokenRejected | shared/src/protect.ts:63-67 | a header token shorter than 32 characters is rejected |
| Pipeline.AcceptedTokensAreMinted | shared/src/protect.ts:63-67 | every accepted submission decodes to a token minted from the secret |
| Pipeline.ExcludedIgnoresEverything | shared/src/protect.ts:45-47 | an excluded path gives the same pass-through whatever the cookies, body and entropy |
| Pipeline.OnlySecretCookieRead | shared/src/protect.ts:50 | only the cookie named in the configuration is read |
| Pipeline.IgnoredMethodIssues | shared/src/protect.ts:62-72 | an ignored method is issued a token unless decoding the cookie raises, and the current generation always issues |
| Pipeline.RejectionStillSetsCookie | shared/src/protect.ts:55-67 | a rejected request that arrived without a cookie still gets the new secret cookie |
| Pipeline.MalformedCookie | shared/src/protect.ts:55-60 | a malformed cookie is never replaced: the current generation treats it as the empty secret, the others raise |
| Protect.CsrfProtect | src/lib/protect.ts:37-71 | returns undefined iff the path is excluded. It calls `setCookie` with the configured options and the encoded fresh secret iff the cookie is absent. It throws `CsrfError` iff the request is not excluded and a checked method's token fails verification. Any other exception happens iff the secret or the token cannot be read. A returned token decodes to `22 + saltByteLength` bytes |
| Protect.ProtectAcceptsEchoedToken | src/lib/protect.ts:46-70 | with no override configured, a token the closure returns is accepted on the next request that echoes it |
| Protect.CsrfProtectAsWritten | shared/src/protect.ts:41-73 | for ignored methods it agrees with the corrected closure |
| Protect.AsWrittenNeverVerifies | shared/src/protect.ts:64 | as written, every checked, non-excluded request ends in a `TypeError` |
| Protect.AsWrittenRejectsEchoedToken | shared/src/protect.ts:64 | as written, even an echoed issued token is refused |
| NextHandler.Handler | src/nextjs.ts:24-62 | exclusion leaves the response untouched. An `Error` value is returned iff the path is not excluded and a checked method's token fails verification; it comes without a token header. The handler throws iff the secret or the token cannot be read. Every other non-excluded call sets `responseHeader` to the token freshly minted from the request's secret, which decodes. A cookie holding the encoded fresh secret is set exactly when none was sent |
| NextHandler.Middleware | src/nextjs.ts:69-85 | 403 iff the handler returns an `Error`; it throws iff the handler throws; otherwise the prepared response passes through with the handler's cookie and token header |
| NextHandler.HeaderTokenAccepted | src/nextjs.ts:33-60 | a token the handler puts in `responseHeader` is accepted on the next non-excluded request that echoes it in `x-csrf-token`, once the cookie set with it is stored |
| NextHandler.MalformedTextThrows | src/nextjs.ts:44-51 | a non-base64 cookie or token makes the middleware throw instead of answering 403 |
| NextHandler.WrongTokenForbidden | src/nextjs.ts:48-54 | a well-formed token not minted from the secret is answered with 403 |
| SvelteHandle.Handle | src/sveltekit.ts:18-56 | exclusion resolves untouched. It answers 403 iff the path is not excluded and a checked method's token fails verification. It throws iff the secret or the token cannot be read. Unless the path is excluded, `locals.csrfToken` is the token freshly minted from the request's secret, which decodes. A cookie under the configured name holding the encoded fresh secret is set exactly when none was sent |
| SvelteHandle.LocalsTokenAccepted | src/sveltekit.ts:33-54 | a token placed in `locals` resolves the next event that echoes it |
| OriginalMiddleware.CsrfProtect | index.js:16-41 | an `Error` value is returned iff a checked method's token fails verification, a missing form field included; it comes without a header. The middleware throws iff the secret or the token cannot be read. Otherwise the configured header carries a decodable token. A cookie holding the encoded fresh secret is set iff none was sent |
| OriginalMiddleware.MissingFormFieldRejected | index.js:29-33 | a url-encoded form without `csrf_token` gives `null`, which is an `Error` value, and the new cookie is still set |
| OriginalMiddleware.FileTokenThrows | util.js:43-47 | a file-valued `csrf_token` reaches `atob` as `[object File]` and raises |
| OriginalMiddleware.NoExclusion | index.js:16-41 | no request is skipped |
| OriginalMiddleware.ViewEchoAccepted | index.js:13-42 | with no token override, a token the middleware issues is accepted on the next request that echoes it, once the cookie it set is stored |

## Left out

- SHA-1 (FIPS 180-4) is a parameter with a 20-byte output. The known-digest test vector cannot be stated without it.
- `createSecret` (`crypto.getRandomValues`) is left out; its bytes are an input. So are the `Math.random()` draws of `_createSalt`, which `CreateSalt` takes as reals in [0, 1). The "unique on each run" tests are probabilistic.
- `atob` accepts more than strict base64: it strips whitespace, allows missing padding and ignores non-zero pad bits. The model decodes strictly (section 4 of RFC 4648). A lenient-only text therefore yields no bytes, or raises, where `atob` would decode it.
- Body parsing (`formData()`, `json()`, `text()`, `JSON.parse`) is taken as already done. The model does not check that the parsed forms agree with the raw text.
- JSON numbers carry the text `String` would give them. Numeric settings in `config.js` are integers. `Number()` of a string is modelled for empty and plain decimal strings only.
- Cookie serialisation, and what a framework does with a cookie set before a 403 response, are framework code and are left out.
- async/Promise ordering and the timing of the early-exit comparison are left out.
- `Object.assign` copies an explicit `undefined`, which would overwrite a default. A partial option with `None` means the key is absent, so that case is not modelled.
- `_fieldNameRegex` interpolates `fieldName` into a regular expression. The model reads the field name literally, so regex metacharacters in a configured name are not modelled. `shared/src/util.ts` never uses this regex; it hard-codes `csrf_token`.
- `config.js` reads properties of a non-object option value. The model treats every non-object value as supplying nothing, which differs only for a function, whose `name` and `length` would be read.
- `OriginalMiddleware.CsrfProtect` reads the typed view of an `initConfig` result. `index.js` run on option values of other types (a non-array `ignoreMethods`, a string length) is left out.
- `src/lib/protect.ts` imports `@/lib/util`, `@/lib/config` and `@/lib/errors`, which are not part of this model. It is modelled over the current utilities and configuration, whose behaviour `src/lib/util.test.ts` describes.
- The framework adapters under `packages/` are not modelled.
- The `src/nextjs.test.ts` and `src/sveltekit.test.ts` APIs are not modelled; they target exports the adapters shown here do not have.
- SharedConfig.NewConfig: lengths are integers. The source's `<` and `>` checks let `NaN` and fractional lengths through (shared/src/config.ts:74-80), and such lengths are not modelled.
- LegacyConfig.NewConfig: lengths are integers. The source's `<` and `>` checks let `NaN` and fractional lengths through (src/config.ts:43-49), and such lengths are not modelled.
- `createSecret` calls with lengths outside the validated range cannot happen after construction, and are not modelled.

## Findings

| source | as written | input that shows it | evidently intended | confidence | as-written member | corrected member |
|---|---|---|---|---|---|---|
| shared/src/protect.ts:64 | passes the `config.token` options object as the extractor's override function; the object is never `undefined`, so the extractor calls it and throws a `TypeError` | any POST to a non-excluded path, for example one echoing a token issued on a previous GET | pass `config.token.value`, as `src/lib/protect.ts:61` does, so a valid token verifies and an invalid one raises `CsrfError` (what `shared/src/protect.test.ts:157-164` expects) | medium, not executed | Protect.AsWrittenNeverVerifies | Protect.ProtectAcceptsEchoedToken |

=== FILE: base64.dfy ===
/**
 * Standard base64 of section 4 of RFC 4648: alphabet `A-Z a-z 0-9 + /`,
 * groups of three bytes become four characters, and a final group of one or
 * two bytes is completed with `=` padding. Decoding is strict: the length is
 * a multiple of four, padding only ends the text, and the unused bits of the
 * last character are zero (section 3.5 of RFC 4648). Under this reading
 * decoding is exactly the inverse of encoding.
 */
module Base64 {
  import opened Prelude

  /** The character for a six-bit value. */
  function SextetChar(v: int): (c: char)
    requires 0 <= v < 64
  {
    if v < 26 then ('A' as int + v) as char
    else if v < 52 then ('a' as int + (v - 26)) as char
    else if v < 62 then ('0' as int + (v - 52)) as char
    else if v == 62 then '+'
    else '/'
  }

  /** The six-bit value of an alphabet character; `None` for any other character, `=` included. */
  function CharSextet(c: char): (r: Option<int>)
    ensures r.Some? ==> 0 <= r.value < 64
  {
    if 'A' <= c <= 'Z' then Some(c as int - 'A' as int)
    else if 'a' <= c <= 'z' then Some(c as int - 'a' as int + 26)
    else if '0' <= c <= '9' then Some(c as int - '0' as int + 52)
    else if c == '+' then Some(62)
    else if c == '/' then Some(63)
    else None
  }

  predicate IsAlphabetChar(c: char) {
    CharSextet(c).Some?
  }

  lemma SextetRoundTrip(v: int)
    requires 0 <= v < 64
    ensures CharSextet(SextetChar(v)) == Some(v)
  {
  }

  lemma CharRoundTrip(c: char)
    requires IsAlphabetChar(c)
    ensures SextetChar(CharSextet(c).value) == c
  {
  }

  /** Four characters for three bytes. */
  function EncodeTriple(b0: byte, b1: byte, b2: byte): string {
    [SextetChar(b0 / 4), SextetChar((b0 % 4) * 16 + b1 / 16),
     SextetChar((b1 % 16) * 4 + b2 / 64), SextetChar(b2 % 64)]
  }

  /** The final group for two trailing bytes. */
  function EncodePair(b0: byte, b1: byte): string {
    [SextetChar(b0 / 4), SextetChar((b0 % 4) * 16 + b1 / 16),
     SextetChar((b1 % 16) * 4), '=']
  }

  /** The final group for one trailing byte. */
  function EncodeSingle(b0: byte): string {
    [SextetChar(b0 / 4), SextetChar((b0 % 4) * 16), '=', '=']
  }

  /** `btoa` applied to the binary string of `b`. */
  function Encode(b: seq<byte>): string
    decreases |b|
  {
    if |b| == 0 then ""
    else if |b| == 1 then EncodeSingle(b[0])
    else if |b| == 2 then EncodePair(b[0], b[1])
    else EncodeTriple(b[0], b[1], b[2]) + Encode(b[3..])
  }

  /** Three bytes from four sextets. */
  function DecodeQuad(c0: int, c1: int, c2: int, c3: int): (r: seq<byte>)
    requires 0 <= c0 < 64 && 0 <= c1 < 64 && 0 <= c2 < 64 && 0 <= c3 < 64
    ensures |r| == 3
  {
    [c0 * 4 + c1 / 16, (c1 % 16) * 16 + c2 / 4, (c2 % 4) * 64 + c3]
  }

  /** The last group of four characters, which may carry padding. */
  function DecodeFinal(q: string): (r: Option<seq<byte>>)
    requires |q| == 4
    ensures r.Some? ==> 1 <= |r.value| <= 3
  {
    var s0, s1, s2, s3 := CharSextet(q[0]), CharSextet(q[1]), CharSextet(q[2]), CharSextet(q[3]);
    if s0.None? || s1.None? then None
    else if q[2] == '=' && q[3] == '=' then
      if s1.value % 16 == 0 then Some([s0.value * 4 + s1.value / 16]) else None
    else if s2.Some? && q[3] == '=' then
      if s2.value % 4 == 0
      then Some([s0.value * 4 + s1.value / 16, (s1.value % 16) * 16 + s2.value / 4])
      else None
    else if s2.Some? && s3.Some? then Some(DecodeQuad(s0.value, s1.value, s2.value, s3.value))
    else None
  }

  /** Strict decoding; `None` is the `InvalidCharacterError` that `atob` raises. */
  function Decode(s: string): (r: Option<seq<byte>>)
    decreases |s|
  {
    if |s| == 0 then Some([])
    else if |s| < 4 then None
    else if |s| == 4 then DecodeFinal(s)
    else
      var s0, s1, s2, s3 := CharSextet(s[0]), CharSextet(s[1]), CharSextet(s[2]), CharSextet(s[3]);
      if s0.None? || s1.None? || s2.None? || s3.None? then None
      else match Decode(s[4..])
        case None => None
        case Some(rest) => Some(DecodeQuad(s0.value, s1.value, s2.value, s3.value) + rest)
  }

  // ---------------------------------------------------------------------
  // Group lemmas

  /** Splitting three bytes into four sextets and joining them back is the identity. */
  lemma SextetsOfBytes(b0: byte, b1: byte, b2: byte)
    ensures var c0, c1, c2, c3 := b0 / 4, (b0 % 4) * 16 + b1 / 16, (b1 % 16) * 4 + b2 / 64, b2 % 64;
            && 0 <= c0 < 64 && 0 <= c1 < 64 && 0 <= c2 < 64 && 0 <= c3 < 64
            && c0 * 4 + c1 / 16 == b0
            && (c1 % 16) * 16 + c2 / 4 == b1
            && (c2 % 4) * 64 + c3 == b2
  {
    var c1 := (b0 % 4) * 16 + b1 / 16;
    var c2 := (b1 % 16) * 4 + b2 / 64;
    assert c1 / 16 == b0 % 4 && c1 % 16 == b1 / 16;
    assert c2 / 4 == b1 % 16 && c2 % 4 == b2 / 64;
  }

  /** Joining four sextets into three bytes and splitting them again is the identity. */
  lemma BytesOfSextets(c0: int, c1: int, c2: int, c3: int)
    requires 0 <= c0 < 64 && 0 <= c1 < 64 && 0 <= c2 < 64 && 0 <= c3 < 64
    ensures var b0, b1, b2 := c0 * 4 + c1 / 16, (c1 % 16) * 16 + c2 / 4, (c2 % 4) * 64 + c3;
            && 0 <= b0 < 256 && 0 <= b1 < 256 && 0 <= b2 < 256
            && b0 / 4 == c0
            && (b0 % 4) * 16 + b1 / 16 == c1
            && (b1 % 16) * 4 + b2 / 64 == c2
            && b2 % 64 == c3
  {
    var b0 := c0 * 4 + c1 / 16;
    var b1 := (c1 % 16) * 16 + c2 / 4;
    var b2 := (c2 % 4) * 64 + c3;
    assert b0 / 4 == c0 && b0 % 4 == c1 / 16;
    assert b1 / 16 == c1 % 16 && b1 % 16 == c2 / 4;
    assert b2 / 64 == c2 % 4 && b2 % 64 == c3;
  }

  lemma SingleRoundTrip(b0: byte)
    ensures Decode(EncodeSingle(b0)) == Some([b0])
  {
    SextetsOfBytes(b0, 0, 0);
    SextetRoundTrip(b0 / 4);
    SextetRoundTrip((b0 % 4) * 16);
  }

  lemma PairRoundTrip(b0: byte, b1: byte)
    ensures Decode(EncodePair(b0, b1)) == Some([b0, b1])
  {
    SextetsOfBytes(b0, b1, 0);
    SextetRoundTrip(b0 / 4);
    SextetRoundTrip((b0 % 4) * 16 + b1 / 16);
    SextetRoundTrip((b1 % 16) * 4);
  }

  lemma TripleRoundTrip(b0: byte, b1: byte, b2: byte)
    ensures Decode(EncodeTriple(b0, b1, b2)) == Some([b0, b1, b2])
    ensures forall i :: 0 <= i < 4 ==> IsAlphabetChar(EncodeTriple(b0, b1, b2)[i])
  {
    var c0, c1, c2, c3 := b0 / 4, (b0 % 4) * 16 + b1 / 16, (b1 % 16) * 4 + b2 / 64, b2 % 64;
    SextetsOfBytes(b0, b1, b2);
    SextetRoundTrip(c0);
    SextetRoundTrip(c1);
    SextetRoundTrip(c2);
    SextetRoundTrip(c3);
  }

  /** A last group that decodes is the encoding of what it decodes to. */
  lemma FinalCanonical(q: string)
    requires |q| == 4 && DecodeFinal(q).Some?
    ensures Encode(DecodeFinal(q).value) == q
  {
    var s2 := CharSextet(q[2]);
    if q[2] == '=' && q[3] == '=' {
      FinalSingleCanonical(q);
    } else if s2.Some? && q[3] == '=' {
      FinalPairCanonical(q);
    } else {
      FinalQuadCanonical(q);
    }
  }

  lemma FinalSingleCanonical(q: string)
    requires |q| == 4 && DecodeFinal(q).Some? && q[2] == '=' && q[3] == '='
    ensures Encode(DecodeFinal(q).value) == q
  {
    var c0, c1 := CharSextet(q[0]).value, CharSextet(q[1]).value;
    var r := DecodeFinal(q).value;
    assert c1 % 16 == 0 && r == [c0 * 4 + c1 / 16];
    CharRoundTrip(q[0]);
    CharRoundTrip(q[1]);
    SingleCanonical(c0, c1);
    assert Encode(r) == EncodeSingle(r[0]);
    assert q == [q[0], q[1], q[2], q[3]];
  }

  lemma FinalPairCanonical(q: string)
    requires |q| == 4 && DecodeFinal(q).Some? && CharSextet(q[2]).Some? && q[3] == '='
    ensures Encode(DecodeFinal(q).value) == q
  {
    var c0, c1, c2 := CharSextet(q[0]).value, CharSextet(q[1]).value, CharSextet(q[2]).value;
    var r := DecodeFinal(q).value;
    assert c2 % 4 == 0 && r == [c0 * 4 + c1 / 16, (c1 % 16) * 16 + c2 / 4];
    CharRoundTrip(q[0]);
    CharRoundTrip(q[1]);
    CharRoundTrip(q[2]);
    PairCanonical(c0, c1, c2);
    assert Encode(r) == EncodePair(r[0], r[1]);
    assert q == [q[0], q[1], q[2], q[3]];
  }

  lemma FinalQuadCanonical(q: string)
    requires |q| == 4 && DecodeFinal(q).Some? && q[3] != '='
    ensures Encode(DecodeFinal(q).value) == q
  {
    assert IsAlphabetChar(q[0]) && IsAlphabetChar(q[1]) && IsAlphabetChar(q[2]) && IsAlphabetChar(q[3]);
    var c0, c1, c2, c3 := CharSextet(q[0]).value, CharSextet(q[1]).value, CharSextet(q[2]).value, CharSextet(q[3]).value;
    var r := DecodeFinal(q).value;
    assert r == DecodeQuad(c0, c1, c2, c3);
    QuadCanonical(q);
    assert Encode(r) == EncodeTriple(r[0], r[1], r[2]) + Encode(r[3..]);
    assert r[3..] == [];
  }

  lemma SingleCanonical(c0: int, c1: int)
    requires 0 <= c0 < 64 && 0 <= c1 < 64 && c1 % 16 == 0
    ensures 0 <= c0 * 4 + c1 / 16 < 256
    ensures EncodeSingle(c0 * 4 + c1 / 16) == [SextetChar(c0), SextetChar(c1), '=', '=']
  {
    BytesOfSextets(c0, c1, 0, 0);
  }

  lemma PairCanonical(c0: int, c1: int, c2: int)
    requires 0 <= c0 < 64 && 0 <= c1 < 64 && 0 <= c2 < 64 && c2 % 4 == 0
    ensures 0 <= c0 * 4 + c1 / 16 < 256 && 0 <= (c1 % 16) * 16 + c2 / 4 < 256
    ensures EncodePair(c0 * 4 + c1 / 16, (c1 % 16) * 16 + c2 / 4) == [SextetChar(c0), SextetChar(c1), SextetChar(c2), '=']
  {
    BytesOfSextets(c0, c1, c2, 0);
  }

  // ---------------------------------------------------------------------
  // Laws

  /** Encoded length: four characters per started group of three bytes. */
  lemma {:induction false} EncodeLength(b: seq<byte>)
    ensures |Encode(b)| == 4 * ((|b| + 2) / 3)
    decreases |b|
  {
    if |b| > 2 {
      EncodeLength(b[3..]);
      assert |b[3..]| == |b| - 3;
      assert (|b| + 2) / 3 == (|b| - 3 + 2) / 3 + 1;
      assert Encode(b) == EncodeTriple(b[0], b[1], b[2]) + Encode(b[3..]);
    }
  }

  /** Every character of an encoding is an alphabet character or padding. */
  lemma {:induction false} EncodeAlphabet(b: seq<byte>)
    ensures forall i :: 0 <= i < |Encode(b)| ==> IsAlphabetChar(Encode(b)[i]) || Encode(b)[i] == '='
    decreases |b|
  {
    if |b| == 1 {
      SextetRoundTrip(b[0] / 4);
      SextetRoundTrip((b[0] % 4) * 16);
    } else if |b| == 2 {
      SextetRoundTrip(b[0] / 4);
      SextetRoundTrip((b[0] % 4) * 16 + b[1] / 16);
      SextetRoundTrip((b[1] % 16) * 4);
    } else if |b| > 2 {
      TripleRoundTrip(b[0], b[1], b[2]);
      EncodeAlphabet(b[3..]);
      var q := EncodeTriple(b[0], b[1], b[2]);
      assert Encode(b) == q + Encode(b[3..]);
      forall i | 0 <= i < |Encode(b)|
        ensures IsAlphabetChar(Encode(b)[i]) || Encode(b)[i] == '='
      {
        if i >= 4 {
          assert Encode(b)[i] == Encode(b[3..])[i - 4];
        }
      }
    }
  }

  /** Decoding a full group followed by more text. */
  lemma DecodeAfterGroup(q: string, rest: string, g: seq<byte>, tail: seq<byte>)
    requires |q| == 4 && |rest| > 0
    requires IsAlphabetChar(q[0]) && IsAlphabetChar(q[1]) && IsAlphabetChar(q[2]) && IsAlphabetChar(q[3])
    requires g == DecodeQuad(CharSextet(q[0]).value, CharSextet(q[1]).value, CharSextet(q[2]).value, CharSextet(q[3]).value)
    requires Decode(rest) == Some(tail)
    ensures Decode(q + rest) == Some(g + tail)
  {
    var s := q + rest;
    assert s[4..] == rest;
    assert s[0] == q[0] && s[1] == q[1] && s[2] == q[2] && s[3] == q[3];
  }

  /** Encoding a full group followed by more bytes. */
  lemma EncodeAfterGroup(g: seq<byte>, tail: seq<byte>)
    requires |g| == 3
    ensures Encode(g + tail) == EncodeTriple(g[0], g[1], g[2]) + Encode(tail)
  {
    var b := g + tail;
    assert b[3..] == tail;
    assert b[0] == g[0] && b[1] == g[1] && b[2] == g[2];
  }

  /** Decoding undoes encoding. */
  lemma {:induction false} DecodeEncode(b: seq<byte>)
    ensures Decode(Encode(b)) == Some(b)
    decreases |b|
  {
    if |b| == 1 {
      SingleRoundTrip(b[0]);
      assert b == [b[0]];
    } else if |b| == 2 {
      PairRoundTrip(b[0], b[1]);
      assert b == [b[0], b[1]];
    } else if |b| > 2 {
      assert b == [b[0], b[1], b[2]] + b[3..];
      EncodeAfterGroup([b[0], b[1], b[2]], b[3..]);
      DecodeEncode(b[3..]);
      GroupThenRest(b[0], b[1], b[2], Encode(b[3..]), b[3..]);
    }
  }

  /** A full group in front of a decodable text decodes to its three bytes in front. */
  lemma GroupThenRest(b0: byte, b1: byte, b2: byte, rest: string, tail: seq<byte>)
    requires Decode(rest) == Some(tail)
    ensures Decode(EncodeTriple(b0, b1, b2) + rest) == Some([b0, b1, b2] + tail)
  {
    var q := EncodeTriple(b0, b1, b2);
    if |rest| == 0 {
      TripleRoundTrip(b0, b1, b2);
      assert q + rest == q;
      assert [b0, b1, b2] + tail == [b0, b1, b2];
    } else {
      TripleSextets(b0, b1, b2);
      DecodeAfterGroup(q, rest, [b0, b1, b2], tail);
    }
  }

  /** The four characters of a full group are alphabet characters that join back into its bytes. */
  lemma TripleSextets(b0: byte, b1: byte, b2: byte)
    ensures var q := EncodeTriple(b0, b1, b2);
            && IsAlphabetChar(q[0]) && IsAlphabetChar(q[1]) && IsAlphabetChar(q[2]) && IsAlphabetChar(q[3])
            && DecodeQuad(CharSextet(q[0]).value, CharSextet(q[1]).value, CharSextet(q[2]).value, CharSextet(q[3]).value)
               == [b0, b1, b2]
  {
    var c0, c1, c2, c3 := b0 / 4, (b0 % 4) * 16 + b1 / 16, (b1 % 16) * 4 + b2 / 64, b2 % 64;
    SextetsOfBytes(b0, b1, b2);
    SextetRoundTrip(c0);
    SextetRoundTrip(c1);
    SextetRoundTrip(c2);
    SextetRoundTrip(c3);
  }

  /** What a successful decoding of more than one group is made of. */
  lemma DecodeSplit(s: string)
    requires |s| > 4 && Decode(s).Some?
    ensures IsAlphabetChar(s[0]) && IsAlphabetChar(s[1]) && IsAlphabetChar(s[2]) && IsAlphabetChar(s[3])
    ensures Decode(s[4..]).Some?
    ensures Decode(s).value
         == DecodeQuad(CharSextet(s[0]).value, CharSextet(s[1]).value, CharSextet(s[2]).value, CharSextet(s[3]).value)
            + Decode(s[4..]).value
  {
  }

  /** Strict decoding accepts only encodings: what it returns encodes back to its input. */
  lemma {:induction false} EncodeDecode(s: string)
    requires Decode(s).Some?
    ensures Encode(Decode(s).value) == s
    decreases |s|
  {
    if |s| == 4 {
      FinalCanonical(s);
    } else if |s| > 4 {
      DecodeSplit(s);
      var c0, c1, c2, c3 := CharSextet(s[0]).value, CharSextet(s[1]).value, CharSextet(s[2]).value, CharSextet(s[3]).value;
      var tail := Decode(s[4..]).value;
      var g := DecodeQuad(c0, c1, c2, c3);
      EncodeDecode(s[4..]);
      EncodeAfterGroup(g, tail);
      QuadCanonical(s[..4]);
      assert s == s[..4] + s[4..];
    }
  }

  /** Four alphabet characters are the encoding of the three bytes they decode to. */
  lemma QuadCanonical(q: string)
    requires |q| == 4
    requires IsAlphabetChar(q[0]) && IsAlphabetChar(q[1]) && IsAlphabetChar(q[2]) && IsAlphabetChar(q[3])
    ensures var g := DecodeQuad(CharSextet(q[0]).value, CharSextet(q[1]).value, CharSextet(q[2]).value, CharSextet(q[3]).value);
            EncodeTriple(g[0], g[1], g[2]) == q
  {
    var c0, c1, c2, c3 := CharSextet(q[0]).value, CharSextet(q[1]).value, CharSextet(q[2]).value, CharSextet(q[3]).value;
    var g := DecodeQuad(c0, c1, c2, c3);
    SextetsCanonical(c0, c1, c2, c3);
    CharRoundTrip(q[0]);
    CharRoundTrip(q[1]);
    CharRoundTrip(q[2]);
    CharRoundTrip(q[3]);
    assert q == [q[0], q[1], q[2], q[3]];
  }

  /** Four sextets are the encoding of the three bytes they join into. */
  lemma SextetsCanonical(c0: int, c1: int, c2: int, c3: int)
    requires 0 <= c0 < 64 && 0 <= c1 < 64 && 0 <= c2 < 64 && 0 <= c3 < 64
    ensures var g := DecodeQuad(c0, c1, c2, c3);
            EncodeTriple(g[0], g[1], g[2]) == [SextetChar(c0), SextetChar(c1), SextetChar(c2), SextetChar(c3)]
  {
    var g := DecodeQuad(c0, c1, c2, c3);
    BytesOfSextets(c0, c1, c2, c3);
    assert g[0] / 4 == c0;
    assert (g[0] % 4) * 16 + g[1] / 16 == c1;
    assert (g[1] % 16) * 4 + g[2] / 64 == c2;
    assert g[2] % 64 == c3;
  }

  /** Decoding succeeds with `b` exactly when `s` is the encoding of `b`. */
  lemma DecodeIffEncoding(s: string, b: seq<byte>)
    ensures Decode(s) == Some(b) <==> Encode(b) == s
  {
    if Decode(s) == Some(b) {
      EncodeDecode(s);
    }
    if Encode(b) == s {
      DecodeEncode(b);
    }
  }

  /** A text holding a character outside the alphabet and `=` never decodes. */
  lemma ForeignCharacterRejected(s: string, i: int)
    requires 0 <= i < |s| && !IsAlphabetChar(s[i]) && s[i] != '='
    ensures Decode(s).None?
  {
    if Decode(s).Some? {
      EncodeDecode(s);
      EncodeAlphabet(Decode(s).value);
    }
  }

  /** A decoded text carries at most three bytes per four characters. */
  lemma DecodedLength(s: string)
    requires Decode(s).Some?
    ensures 4 * ((|Decode(s).value| + 2) / 3) == |s|
  {
    EncodeDecode(s);
    EncodeLength(Decode(s).value);
  }

  lemma KnownVectors()
    ensures Encode([0]) == "AA=="
    ensures Encode([1, 2, 3]) == "AQID"
    ensures Decode("AA==") == Some([0])
    ensures Decode("AQID") == Some([1, 2, 3])
  {
  }
}

=== FILE: codec.dfy ===
/**
 * The token codec: base64 transport of byte strings, token minting and token
 * verification. A token is
 *
 *     [algorithm id = 0, salt length] ++ salt ++ digest(secret ++ salt)
 *
 * where the digest is SHA-1 (20 bytes). SHA-1 itself is not modelled: every
 * operation takes the digest function as a parameter of type `HashFn`, which
 * only promises 20-byte outputs. Randomness (the secret and the salt bytes) is
 * likewise an input.
 */
module Codec {
  import opened Prelude
  import Base64

  const DigestLength := 20
  /** Two header bytes and an empty salt ahead of the digest. */
  const MinTokenLength := 22

  function ZeroDigest(data: seq<byte>): seq<byte> {
    seq(DigestLength, _ => 0)
  }

  /** A digest function with SHA-1's output length. */
  type HashFn = f: seq<byte> -> seq<byte> | forall x :: |f(x)| == DigestLength
    witness ZeroDigest

  // ---------------------------------------------------------------------
  // Binary strings: what `String.fromCharCode` and `charCodeAt` convert between

  function BinaryString(b: seq<byte>): (s: string)
    ensures |s| == |b|
  {
    seq(|b|, i requires 0 <= i < |b| => b[i] as char)
  }

  // ---------------------------------------------------------------------
  // Base64 transport

  /** `utoa`: base64 of the binary string of `b`. */
  function Utoa(b: seq<byte>): (s: string)
    ensures Base64.Decode(s) == Some(b)
    ensures |s| == 4 * ((|b| + 2) / 3)
  {
    Base64.DecodeEncode(b);
    Base64.EncodeLength(b);
    Base64.Encode(b)
  }

  /**
   * `atou` of the current generation: the bytes `s` encodes, and the empty
   * sequence when `atob` raises `InvalidCharacterError`.
   */
  function Atou(s: string): (b: seq<byte>)
    ensures Utoa(b) == s || b == []
    ensures forall x :: Utoa(x) == s ==> b == x
  {
    AtouAgreesWithEncoding(s);
    match Base64.Decode(s)
    case Some(bytes) => bytes
    case None => []
  }

  /**
   * `atou` of the intermediate and original generations, which let `atob`
   * raise: `None` stands for the exception.
   */
  function AtouRaising(s: string): (r: Option<seq<byte>>)
    ensures r.Some? <==> exists b :: Utoa(b) == s
    ensures r.Some? ==> Utoa(r.value) == s
    ensures r.Some? ==> r.value == Atou(s)
    ensures r.None? ==> Atou(s) == []
  {
    AtouAgreesWithEncoding(s);
    if Base64.Decode(s).Some? then assert Utoa(Base64.Decode(s).value) == s; Base64.Decode(s)
    else None
  }

  lemma AtouAgreesWithEncoding(s: string)
    ensures Base64.Decode(s).Some? ==> Base64.Encode(Base64.Decode(s).value) == s
    ensures forall x :: Base64.Encode(x) == s ==> Base64.Decode(s) == Some(x)
  {
    if Base64.Decode(s).Some? {
      Base64.EncodeDecode(s);
    }
    forall x | Base64.Encode(x) == s
      ensures Base64.Decode(s) == Some(x)
    {
      Base64.DecodeEncode(x);
    }
  }

  /** A token text with a character outside the base64 alphabet decodes to nothing. */
  lemma AtouForeignCharacter(s: string, i: int)
    requires 0 <= i < |s| && !Base64.IsAlphabetChar(s[i]) && s[i] != '='
    ensures Atou(s) == []
  {
    Base64.ForeignCharacterRejected(s, i);
  }

  /** A text shorter than the encoding of a minimal token decodes to fewer than 22 bytes. */
  lemma AtouShortText(s: string)
    requires |s| < 32
    ensures |Atou(s)| < MinTokenLength
  {
    if Base64.Decode(s).Some? {
      Base64.DecodedLength(s);
    }
  }

  lemma AtouKnownVectors()
    ensures Utoa([0]) == "AA==" && Utoa([1, 2, 3]) == "AQID"
    ensures Atou("AA==") == [0] && Atou("AQID") == [1, 2, 3]
    ensures Atou("aÃ¼") == []
  {
    Base64.KnownVectors();
    assert Atou("AA==") == [0];
    assert Atou("AQID") == [1, 2, 3];
    AtouForeignCharacter("aÃ¼", 1);
  }

  // ---------------------------------------------------------------------
  // Salt

  /**
   * `_createSalt`: one byte per draw of `Math.random()` in [0, 1), scaled by
   * 255 and floored, so the byte 255 never occurs in a salt.
   */
  method CreateSalt(draws: seq<real>) returns (salt: seq<byte>)
    requires forall i :: 0 <= i < |draws| ==> 0.0 <= draws[i] < 1.0
    ensures |salt| == |draws|
    ensures forall i :: 0 <= i < |salt| ==> salt[i] < 255
    ensures forall i :: 0 <= i < |salt| ==>
              salt[i] as real <= draws[i] * 255.0 < salt[i] as real + 1.0
  {
    salt := [];
    var i := 0;
    while i < |draws|
      invariant 0 <= i <= |draws|
      invariant |salt| == i
      invariant forall k :: 0 <= k < i ==> salt[k] < 255
      invariant forall k :: 0 <= k < i ==>
                  salt[k] as real <= draws[k] * 255.0 < salt[k] as real + 1.0
    {
      var v := (draws[i] * 255.0).Floor;
      salt := salt + [v];
      i := i + 1;
    }
  }

  // ---------------------------------------------------------------------
  // Tokens

  /** `_hash`: the digest of the secret immediately followed by the salt. */
  function Digest(hash: HashFn, secret: seq<byte>, salt: seq<byte>): (d: seq<byte>)
    ensures |d| == DigestLength
  {
    hash(secret + salt)
  }

  /**
   * `createToken`. The salt length is stored in one `Uint8Array` cell, which
   * keeps it modulo 256.
   */
  function CreateToken(hash: HashFn, secret: seq<byte>, salt: seq<byte>): (t: seq<byte>)
    ensures |t| == MinTokenLength + |salt|
    ensures t[0] == 0 && t[1] == |salt| % 256
    ensures t[2..2 + |salt|] == salt
    ensures t[2 + |salt|..] == Digest(hash, secret, salt)
  {
    [0, |salt| % 256] + salt + Digest(hash, secret, salt)
  }

  /** `min(i, n)`: how `subarray` clamps an index to the length. */
  function Clamp(i: int, n: nat): (r: nat)
    requires 0 <= i
    ensures r <= n && r <= i && (r == n || r == i)
  {
    if i < n then i else n
  }

  /** Where the salt ends in a token of at least two bytes. */
  function SaltEnd(token: seq<byte>): (r: nat)
    requires |token| >= 2
    ensures 2 <= r <= |token|
  {
    Clamp(2 + token[1] as int, |token|)
  }

  /**
   * `verifyToken` of the current and intermediate generations: reject short
   * tokens, read the salt length from byte 1, and compare the rest of the
   * token with the digest recomputed from the secret and the salt.
   */
  function VerifyToken(hash: HashFn, token: seq<byte>, secret: seq<byte>): bool {
    if |token| < MinTokenLength then false
    else
      var salt := token[2..SaltEnd(token)];
      var supplied := token[SaltEnd(token)..];
      var expected := Digest(hash, secret, salt);
      |supplied| == |expected| && supplied == expected
  }

  /**
   * `verifyToken` of the original generation: no length guard. For a token of
   * fewer than two bytes `token[1]` is `undefined`, the salt slice is empty
   * and the whole token is compared with the digest.
   */
  function VerifyTokenUnguarded(hash: HashFn, token: seq<byte>, secret: seq<byte>): bool {
    var salt := if |token| < 2 then [] else token[2..SaltEnd(token)];
    var supplied := if |token| < 2 then token else token[SaltEnd(token)..];
    var expected := Digest(hash, secret, salt);
    |supplied| == |expected| && supplied == expected
  }

  /** The acceptance condition of `VerifyToken`, written out on the token's layout. */
  lemma VerifyTokenCharacterisation(hash: HashFn, token: seq<byte>, secret: seq<byte>)
    ensures VerifyToken(hash, token, secret) <==>
              && |token| >= MinTokenLength
              && |token| == MinTokenLength + token[1]
              && token[2 + token[1]..] == Digest(hash, secret, token[2..2 + token[1]])
  {
  }

  /** Minted tokens verify against the secret they were minted from. */
  lemma VerifyCreatedToken(hash: HashFn, secret: seq<byte>, salt: seq<byte>)
    requires |salt| <= 255
    ensures VerifyToken(hash, CreateToken(hash, secret, salt), secret)
  {
    var t := CreateToken(hash, secret, salt);
    assert SaltEnd(t) == 2 + |salt|;
  }

  /**
   * The tokens a secret accepts are exactly the minted ones, up to the
   * algorithm byte, which is never inspected.
   */
  lemma AcceptedIffMinted(hash: HashFn, token: seq<byte>, secret: seq<byte>)
    ensures VerifyToken(hash, token, secret) <==> IsMintedFrom(hash, token, secret)
  {
    if VerifyToken(hash, token, secret) {
      AcceptedIsMinted(hash, token, secret);
    }
    if IsMintedFrom(hash, token, secret) {
      var salt :| MintedWith(hash, token, secret, salt);
      MintedIsAccepted(hash, token, secret, salt);
    }
  }

  /** `token` equals, from byte 1 on, a token minted from `secret` with some salt. */
  ghost predicate IsMintedFrom(hash: HashFn, token: seq<byte>, secret: seq<byte>) {
    |token| > 0 && exists salt :: MintedWith(hash, token, secret, salt)
  }

  ghost predicate MintedWith(hash: HashFn, token: seq<byte>, secret: seq<byte>, salt: seq<byte>)
    requires |token| > 0
  {
    |salt| <= 255 && token[1..] == CreateToken(hash, secret, salt)[1..]
  }

  lemma AcceptedIsMinted(hash: HashFn, token: seq<byte>, secret: seq<byte>)
    requires VerifyToken(hash, token, secret)
    ensures IsMintedFrom(hash, token, secret)
  {
    VerifyTokenCharacterisation(hash, token, secret);
    var n: byte := token[1];
    var salt: seq<byte> := token[2..2 + n];
    TokenTail(token, n);
    CreatedTokenTail(hash, secret, salt);
    assert MintedWith(hash, token, secret, salt);
  }

  /** A token of at least `2 + n` bytes, split after its salt length byte. */
  lemma TokenTail(token: seq<byte>, n: nat)
    requires 2 + n <= |token|
    ensures token[1..] == [token[1]] + token[2..2 + n] + token[2 + n..]
  {
    assert token[1..] == token[1..2] + token[2..2 + n] + token[2 + n..];
  }

  lemma CreatedTokenTail(hash: HashFn, secret: seq<byte>, salt: seq<byte>)
    requires |salt| <= 255
    ensures CreateToken(hash, secret, salt)[1..] == [|salt|] + salt + Digest(hash, secret, salt)
  {
    var n := |salt|;
    assert n % 256 == n;
    var t := CreateToken(hash, secret, salt);
    TokenTail(t, n);
  }

  lemma MintedIsAccepted(hash: HashFn, token: seq<byte>, secret: seq<byte>, salt: seq<byte>)
    requires |token| > 0 && |salt| <= 255
    requires token[1..] == CreateToken(hash, secret, salt)[1..]
    ensures VerifyToken(hash, token, secret)
  {
    var t := CreateToken(hash, secret, salt);
    var n := |salt|;
    assert |token| == |t|;
    assert token[1] == t[1] == n;
    assert SaltEnd(token) == 2 + n;
    assert token[2..2 + n] == salt by {
      forall i | 0 <= i < n
        ensures token[2..2 + n][i] == salt[i]
      {
        assert token[2 + i] == t[2 + i];
        assert t[2 + i] == t[2..2 + n][i];
      }
    }
    assert token[2 + n..] == Digest(hash, secret, salt) by {
      forall i | 0 <= i < DigestLength
        ensures token[2 + n..][i] == Digest(hash, secret, salt)[i]
      {
        assert token[2 + n + i] == t[2 + n + i];
        assert t[2 + n + i] == t[2 + n..][i];
      }
    }
  }

  /** Byte 0, the algorithm id, does not influence verification. */
  lemma AlgorithmIdIgnored(hash: HashFn, token: seq<byte>, secret: seq<byte>, id: byte)
    requires |token| > 0
    ensures VerifyToken(hash, token[0 := id], secret) == VerifyToken(hash, token, secret)
  {
    var t' := token[0 := id];
    if |token| >= MinTokenLength {
      assert t'[2..SaltEnd(t')] == token[2..SaltEnd(token)];
      assert t'[SaltEnd(t')..] == token[SaltEnd(token)..];
    }
  }

  /** The original generation's missing length guard changes nothing. */
  lemma UnguardedAgrees(hash: HashFn, token: seq<byte>, secret: seq<byte>)
    ensures VerifyTokenUnguarded(hash, token, secret) == VerifyToken(hash, token, secret)
  {
  }

  // ---------------------------------------------------------------------
  // The comparison loops

  /** The current generation's early-exit comparison, front to back. */
  method DigestsMatch(supplied: seq<byte>, expected: seq<byte>) returns (eq: bool)
    ensures eq <==> supplied == expected
  {
    if |supplied| != |expected| {
      return false;
    }
    var i := 0;
    while i < |supplied|
      invariant 0 <= i <= |supplied|
      invariant supplied[..i] == expected[..i]
    {
      if supplied[i] != expected[i] {
        return false;
      }
      i := i + 1;
    }
    assert supplied == supplied[..i] && expected == expected[..i];
    return true;
  }

  /** The original generation's comparison, from the last byte down. */
  method DigestsMatchBackward(supplied: seq<byte>, expected: seq<byte>) returns (eq: bool)
    ensures eq <==> supplied == expected
  {
    var i := |supplied|;
    if i != |expected| {
      return false;
    }
    while i > 0
      invariant 0 <= i <= |supplied|
      invariant supplied[i..] == expected[i..]
    {
      i := i - 1;
      if supplied[i] != expected[i] {
        return false;
      }
    }
    return true;
  }

  /** `verifyToken` of the current generation, step by step. */
  method CheckToken(hash: HashFn, token: seq<byte>, secret: seq<byte>) returns (ok: bool)
    ensures ok <==> IsMintedFrom(hash, token, secret)
  {
    AcceptedIffMinted(hash, token, secret);
    if |token| < MinTokenLength {
      return false;
    }
    var end := SaltEnd(token);
    var hashCheck := Digest(hash, secret, token[2..end]);
    ok := DigestsMatch(token[end..], hashCheck);
  }

  /** `verifyToken` of the original generation, step by step. */
  method CheckTokenUnguarded(hash: HashFn, token: seq<byte>, secret: seq<byte>) returns (ok: bool)
    ensures ok <==> IsMintedFrom(hash, token, secret)
  {
    AcceptedIffMinted(hash, token, secret);
    UnguardedAgrees(hash, token, secret);
    var salt, supplied;
    if |token| < 2 {
      salt, supplied := [], token;
    } else {
      var end := SaltEnd(token);
      salt, supplied := token[2..end], token[end..];
    }
    ok := DigestsMatchBackward(supplied, Digest(hash, secret, salt));
  }

  // ---------------------------------------------------------------------
  // The original generation's conversion loops

  /** `utoa` of the original generation: the binary string is filled back to front. */
  method UtoaBackward(input: seq<byte>) returns (s: string)
    ensures Base64.Decode(s) == Some(input)
  {
    var i := |input|;
    var output := new char[i];
    while i > 0
      invariant 0 <= i <= |input|
      invariant forall k :: i <= k < |input| ==> output[k] == input[k] as char
    {
      i := i - 1;
      output[i] := input[i] as char;
    }
    assert output[..] == BinaryString(input);
    s := Utoa(CharCodes(output[..]));
    assert CharCodes(output[..]) == input;
  }

  /** The byte codes of a binary string. */
  function CharCodes(s: string): (b: seq<byte>)
    requires forall i :: 0 <= i < |s| ==> s[i] as int < 256
    ensures |b| == |s|
  {
    seq(|s|, i requires 0 <= i < |s| => s[i] as int)
  }

  /**
   * `atou` of the original and intermediate generations: `atob` raises on
   * malformed input (`None`); otherwise the decoded binary string is copied
   * back to front into the output.
   */
  method AtouBackward(input: string) returns (r: Option<seq<byte>>)
    ensures r.Some? <==> exists b :: Utoa(b) == input
    ensures r.Some? ==> Utoa(r.value) == input
    ensures r == AtouRaising(input)
  {
    var decoded := AtouRaising(input);
    if decoded.None? {
      return None;
    }
    var str := BinaryString(decoded.value);
    var i := |str|;
    var output := new int[i];
    while i > 0
      invariant 0 <= i <= |str|
      invariant forall k :: i <= k < |str| ==> output[k] == str[k] as int
    {
      i := i - 1;
      output[i] := str[i] as int;
    }
    assert output[..] == decoded.value;
    return Some(output[..]);
  }
}

=== FILE: config.dfy ===
/** What every configuration generation shares: the byte-length check and cookie `sameSite` values. */
module ConfigRules {
  import opened Prelude

  /** The error each generation throws from its constructor. */
  datatype ConfigError = SaltLengthOutOfRange | SecretLengthOutOfRange

  /** `sameSite`: a boolean or one of three keywords. */
  datatype SameSite = SameSiteFlag(on: bool) | SameSiteNone | SameSiteStrict | SameSiteLax

  /** A length the validation accepts: greater than 0 and less than 256. */
  predicate InByteRange(n: int) {
    1 <= n <= 255
  }

  /** The two range checks in source order: the salt length is checked first. */
  function CheckLengths(salt: int, secret: int): (r: Option<ConfigError>)
    ensures r.None? <==> InByteRange(salt) && InByteRange(secret)
    ensures r == Some(SaltLengthOutOfRange) <==> !InByteRange(salt)
    ensures r == Some(SecretLengthOutOfRange) <==> InByteRange(salt) && !InByteRange(secret)
  {
    if salt < 1 || salt > 255 then Some(SaltLengthOutOfRange)
    else if secret < 1 || secret > 255 then Some(SecretLengthOutOfRange)
    else None
  }
}

/**
 * The current configuration (`shared/src/config.ts`): classes with field
 * defaults, built from a partial options object with `Object.assign`, the
 * nested cookie and token partials first turned into full option objects.
 * A partial is a record of `Option` fields; `None` is a field left out.
 */
module SharedConfig {
  import opened Prelude
  import opened Http
  import opened ConfigRules
  import Extractor

  datatype CookieOptions = CookieOptions(
    domain: string,
    httpOnly: bool,
    maxAge: Option<int>,
    name: string,
    partitioned: Option<bool>,
    path: string,
    sameSite: SameSite,
    secure: bool)

  datatype CookiePartial = CookiePartial(
    domain: Option<string>,
    httpOnly: Option<bool>,
    maxAge: Option<int>,
    name: Option<string>,
    partitioned: Option<bool>,
    path: Option<string>,
    sameSite: Option<SameSite>,
    secure: Option<bool>)

  const DefaultCookie := CookieOptions("", true, None, "_csrfSecret", None, "/", SameSiteStrict, true)

  /** `new CookieOptions(opts)`: each supplied field replaces its default. */
  function NewCookieOptions(p: CookiePartial): (c: CookieOptions)
    ensures p.domain.Some? ==> c.domain == p.domain.value
    ensures p.domain.None? ==> c.domain == DefaultCookie.domain
    ensures p.name.Some? ==> c.name == p.name.value
    ensures p.name.None? ==> c.name == DefaultCookie.name
    ensures c.maxAge == p.maxAge && c.partitioned == p.partitioned
    ensures c.httpOnly == p.httpOnly.GetOr(DefaultCookie.httpOnly)
    ensures c.path == p.path.GetOr(DefaultCookie.path)
    ensures c.sameSite == p.sameSite.GetOr(DefaultCookie.sameSite)
    ensures c.secure == p.secure.GetOr(DefaultCookie.secure)
  {
    CookieOptions(
      p.domain.GetOr(DefaultCookie.domain),
      p.httpOnly.GetOr(DefaultCookie.httpOnly),
      if p.maxAge.Some? then p.maxAge else DefaultCookie.maxAge,
      p.name.GetOr(DefaultCookie.name),
      if p.partitioned.Some? then p.partitioned else DefaultCookie.partitioned,
      p.path.GetOr(DefaultCookie.path),
      p.sameSite.GetOr(DefaultCookie.sameSite),
      p.secure.GetOr(DefaultCookie.secure))
  }

  /** Every field of a full cookie option set, as a partial. */
  function CookieAsPartial(c: CookieOptions): CookiePartial {
    CookiePartial(Some(c.domain), Some(c.httpOnly), c.maxAge, Some(c.name), c.partitioned,
                  Some(c.path), Some(c.sameSite), Some(c.secure))
  }

  const NoCookieFields := CookiePartial(None, None, None, None, None, None, None, None)

  /** An empty partial gives the defaults; a full one gives itself back. */
  lemma CookieOptionsMerge(c: CookieOptions)
    ensures NewCookieOptions(NoCookieFields) == DefaultCookie
    ensures NewCookieOptions(CookieAsPartial(c)) == c
  {
  }

  datatype TokenOptions = TokenOptions(fieldName: string, value: Option<Override>)

  datatype TokenPartial = TokenPartial(fieldName: Option<string>, value: Option<Override>)

  const DefaultFieldName := "csrf_token"

  /** `new TokenOptions(opts)`. */
  function NewTokenOptions(p: TokenPartial): (t: TokenOptions)
    ensures t.fieldName == p.fieldName.GetOr(DefaultFieldName)
    ensures t.value == p.value
  {
    TokenOptions(p.fieldName.GetOr(DefaultFieldName), p.value)
  }

  /** `_fieldNameRegex.test(key)`, the field name taken literally. */
  predicate FieldNameMatches(t: TokenOptions, key: string) {
    Extractor.IndexedKey(key, t.fieldName)
  }

  /** The field-name pattern accepts exactly the indexed forms of the field name. */
  lemma FieldNamePattern(t: TokenOptions, key: string)
    ensures FieldNameMatches(t, key) <==>
      exists indices :: Extractor.AllIndices(indices) && key == Extractor.IndexPrefix(indices) + t.fieldName
  {
    if FieldNameMatches(t, key) {
      var indices := Extractor.IndexedKeySound(key, t.fieldName);
    }
    forall indices | Extractor.AllIndices(indices) && key == Extractor.IndexPrefix(indices) + t.fieldName
      ensures FieldNameMatches(t, key)
    {
      Extractor.IndexedKeyComplete(indices, t.fieldName);
    }
  }

  datatype Config = Config(
    excludePathPrefixes: seq<string>,
    ignoreMethods: seq<string>,
    saltByteLength: int,
    secretByteLength: int,
    cookie: CookieOptions,
    token: TokenOptions)

  datatype ConfigOptions = ConfigOptions(
    excludePathPrefixes: Option<seq<string>>,
    ignoreMethods: Option<seq<string>>,
    saltByteLength: Option<int>,
    secretByteLength: Option<int>,
    cookie: Option<CookiePartial>,
    token: Option<TokenPartial>)

  /** `new Config()` with no options. */
  const NoOptions := ConfigOptions(None, None, None, None, None, None)

  const DefaultIgnoreMethods := ["GET", "HEAD", "OPTIONS"]
  const DefaultSaltByteLength := 8
  const DefaultSecretByteLength := 18

  /** A configuration the constructor can return. */
  predicate Valid(c: Config) {
    InByteRange(c.saltByteLength) && InByteRange(c.secretByteLength)
  }

  /** `new Config(opts)`: supplied fields replace defaults, then both lengths are range-checked. */
  function NewConfig(opts: ConfigOptions): (r: Result<Config, ConfigError>)
    ensures r.Ok? <==> InByteRange(opts.saltByteLength.GetOr(DefaultSaltByteLength))
                       && InByteRange(opts.secretByteLength.GetOr(DefaultSecretByteLength))
    ensures r.Err? ==> (r.error == SaltLengthOutOfRange <==> !InByteRange(opts.saltByteLength.GetOr(DefaultSaltByteLength)))
    ensures r.Ok? ==> Valid(r.value)
    ensures r.Ok? ==> r.value.excludePathPrefixes == opts.excludePathPrefixes.GetOr([])
    ensures r.Ok? ==> r.value.ignoreMethods == opts.ignoreMethods.GetOr(DefaultIgnoreMethods)
    ensures r.Ok? ==> r.value.saltByteLength == opts.saltByteLength.GetOr(DefaultSaltByteLength)
    ensures r.Ok? ==> r.value.secretByteLength == opts.secretByteLength.GetOr(DefaultSecretByteLength)
    ensures r.Ok? && opts.cookie.Some? ==> r.value.cookie == NewCookieOptions(opts.cookie.value)
    ensures r.Ok? && opts.token.Some? ==> r.value.token == NewTokenOptions(opts.token.value)
    ensures r.Ok? && opts.cookie.None? ==> r.value.cookie == DefaultCookie
    ensures r.Ok? && opts.token.None? ==> r.value.token == TokenOptions(DefaultFieldName, None)
  {
    var c := Config(
      opts.excludePathPrefixes.GetOr([]),
      opts.ignoreMethods.GetOr(DefaultIgnoreMethods),
      opts.saltByteLength.GetOr(DefaultSaltByteLength),
      opts.secretByteLength.GetOr(DefaultSecretByteLength),
      NewCookieOptions(opts.cookie.GetOr(NoCookieFields)),
      NewTokenOptions(opts.token.GetOr(TokenPartial(None, None))));
    match CheckLengths(c.saltByteLength, c.secretByteLength)
    case Some(e) => Err(e)
    case None => Ok(c)
  }

  /** A configuration as the options object that would rebuild it. */
  function OptionsOf(c: Config): ConfigOptions {
    ConfigOptions(Some(c.excludePathPrefixes), Some(c.ignoreMethods), Some(c.saltByteLength),
                  Some(c.secretByteLength), Some(CookieAsPartial(c.cookie)),
                  Some(TokenPartial(Some(c.token.fieldName), c.token.value)))
  }

  /** Rebuilding from a configuration's own fields gives it back exactly when it is valid. */
  lemma RebuildConfig(c: Config)
    ensures NewConfig(OptionsOf(c)) == Ok(c) <==> Valid(c)
  {
    CookieOptionsMerge(c.cookie);
  }

  /** The defaults of `new Config()`. */
  lemma ConfigDefaults()
    ensures NewConfig(NoOptions).Ok?
    ensures var c := NewConfig(NoOptions).value;
      && c.excludePathPrefixes == []
      && c.ignoreMethods == ["GET", "HEAD", "OPTIONS"]
      && c.saltByteLength == 8 && c.secretByteLength == 18
      && c.cookie == CookieOptions("", true, None, "_csrfSecret", None, "/", SameSiteStrict, true)
      && c.token.fieldName == "csrf_token" && c.token.value.None?
  {
  }

  /** The configuration `new Config()` builds. */
  const DefaultConfig := Config([], DefaultIgnoreMethods, DefaultSaltByteLength, DefaultSecretByteLength,
                                DefaultCookie, TokenOptions(DefaultFieldName, None))

  /** A supplied top-level or nested field replaces its default and nothing else changes. */
  lemma ConfigOverrides(f: Override)
    ensures NewConfig(NoOptions.(saltByteLength := Some(10))) == Ok(DefaultConfig.(saltByteLength := 10))
    ensures NewConfig(NoOptions.(cookie := Some(NoCookieFields.(domain := Some("xxx")))))
         == Ok(DefaultConfig.(cookie := DefaultCookie.(domain := "xxx")))
    ensures NewConfig(NoOptions.(token := Some(TokenPartial(Some("csrfToken"), Some(f)))))
         == Ok(DefaultConfig.(token := TokenOptions("csrfToken", Some(f))))
  {
  }

  /** Construction throws exactly when a supplied length is outside 1..255, the salt reported first. */
  lemma ConfigLengthChecks(salt: int, secret: int)
    ensures var opts := NoOptions.(saltByteLength := Some(salt));
      NewConfig(opts).Err? <==> !(1 <= salt <= 255)
    ensures var opts := NoOptions.(secretByteLength := Some(secret));
      NewConfig(opts).Err? <==> !(1 <= secret <= 255)
    ensures var opts := NoOptions.(saltByteLength := Some(salt), secretByteLength := Some(secret));
      NewConfig(opts).Err? && !(1 <= salt <= 255) ==> NewConfig(opts).error == SaltLengthOutOfRange
  {
  }
}

/**
 * The Next.js/SvelteKit configuration (`src/config.ts`): the same shape as
 * the current one, without `partitioned` and `fieldName`, with a
 * `responseHeader` token option and `/_next/` excluded by default.
 */
module LegacyConfig {
  import opened Prelude
  import opened Http
  import opened ConfigRules

  datatype CookieOptions = CookieOptions(
    domain: string,
    httpOnly: bool,
    maxAge: Option<int>,
    name: string,
    path: string,
    sameSite: SameSite,
    secure: bool)

  datatype CookiePartial = CookiePartial(
    domain: Option<string>,
    httpOnly: Option<bool>,
    maxAge: Option<int>,
    name: Option<string>,
    path: Option<string>,
    sameSite: Option<SameSite>,
    secure: Option<bool>)

  const DefaultCookie := CookieOptions("", true, None, "_csrfSecret", "/", SameSiteStrict, true)

  const NoCookieFields := CookiePartial(None, None, None, None, None, None, None)

  function NewCookieOptions(p: CookiePartial): (c: CookieOptions)
    ensures p.name.Some? ==> c.name == p.name.value
    ensures p.name.None? ==> c.name == DefaultCookie.name
    ensures c.maxAge == p.maxAge
    ensures c.domain == p.domain.GetOr(DefaultCookie.domain)
    ensures c.httpOnly == p.httpOnly.GetOr(DefaultCookie.httpOnly)
    ensures c.path == p.path.GetOr(DefaultCookie.path)
    ensures c.sameSite == p.sameSite.GetOr(DefaultCookie.sameSite)
    ensures c.secure == p.secure.GetOr(DefaultCookie.secure)
  {
    CookieOptions(
      p.domain.GetOr(DefaultCookie.domain),
      p.httpOnly.GetOr(DefaultCookie.httpOnly),
      if p.maxAge.Some? then p.maxAge else DefaultCookie.maxAge,
      p.name.GetOr(DefaultCookie.name),
      p.path.GetOr(DefaultCookie.path),
      p.sameSite.GetOr(DefaultCookie.sameSite),
      p.secure.GetOr(DefaultCookie.secure))
  }

  function CookieAsPartial(c: CookieOptions): CookiePartial {
    CookiePartial(Some(c.domain), Some(c.httpOnly), c.maxAge, Some(c.name), Some(c.path),
                  Some(c.sameSite), Some(c.secure))
  }

  /** An empty partial gives the defaults; a full one gives itself back. */
  lemma CookieOptionsMerge(c: CookieOptions)
    ensures NewCookieOptions(NoCookieFields) == DefaultCookie
    ensures NewCookieOptions(CookieAsPartial(c)) == c
  {
  }

  datatype TokenOptions = TokenOptions(responseHeader: string, value: Option<Override>)

  datatype TokenPartial = TokenPartial(responseHeader: Option<string>, value: Option<Override>)

  const DefaultResponseHeader := "X-CSRF-Token"

  function NewTokenOptions(p: TokenPartial): (t: TokenOptions)
    ensures t.responseHeader == p.responseHeader.GetOr(DefaultResponseHeader)
    ensures t.value == p.value
  {
    TokenOptions(p.responseHeader.GetOr(DefaultResponseHeader), p.value)
  }

  datatype Config = Config(
    cookie: CookieOptions,
    excludePathPrefixes: seq<string>,
    ignoreMethods: seq<string>,
    saltByteLength: int,
    secretByteLength: int,
    token: TokenOptions)

  datatype ConfigOptions = ConfigOptions(
    cookie: Option<CookiePartial>,
    excludePathPrefixes: Option<seq<string>>,
    ignoreMethods: Option<seq<string>>,
    saltByteLength: Option<int>,
    secretByteLength: Option<int>,
    token: Option<TokenPartial>)

  const NoOptions := ConfigOptions(None, None, None, None, None, None)

  const DefaultExcludePathPrefixes := ["/_next/"]
  const DefaultIgnoreMethods := ["GET", "HEAD", "OPTIONS"]
  const DefaultSaltByteLength := 8
  const DefaultSecretByteLength := 18

  predicate Valid(c: Config) {
    InByteRange(c.saltByteLength) && InByteRange(c.secretByteLength)
  }

  /** `new Config(opts)`. */
  function NewConfig(opts: ConfigOptions): (r: Result<Config, ConfigError>)
    ensures r.Ok? <==> InByteRange(opts.saltByteLength.GetOr(DefaultSaltByteLength))
                       && InByteRange(opts.secretByteLength.GetOr(DefaultSecretByteLength))
    ensures r.Err? ==> (r.error == SaltLengthOutOfRange <==> !InByteRange(opts.saltByteLength.GetOr(DefaultSaltByteLength)))
    ensures r.Ok? ==> Valid(r.value)
    ensures r.Ok? ==> r.value.excludePathPrefixes == opts.excludePathPrefixes.GetOr(DefaultExcludePathPrefixes)
    ensures r.Ok? ==> r.value.ignoreMethods == opts.ignoreMethods.GetOr(DefaultIgnoreMethods)
    ensures r.Ok? ==> r.value.saltByteLength == opts.saltByteLength.GetOr(DefaultSaltByteLength)
    ensures r.Ok? ==> r.value.secretByteLength == opts.secretByteLength.GetOr(DefaultSecretByteLength)
    ensures r.Ok? ==> r.value.cookie == NewCookieOptions(opts.cookie.GetOr(NoCookieFields))
    ensures r.Ok? ==> r.value.token == NewTokenOptions(opts.token.GetOr(TokenPartial(None, None)))
    ensures r.Ok? && opts.cookie.None? ==> r.value.cookie == DefaultCookie
    ensures r.Ok? && opts.token.None? ==> r.value.token == TokenOptions(DefaultResponseHeader, None)
  {
    var c := Config(
      NewCookieOptions(opts.cookie.GetOr(NoCookieFields)),
      opts.excludePathPrefixes.GetOr(DefaultExcludePathPrefixes),
      opts.ignoreMethods.GetOr(DefaultIgnoreMethods),
      opts.saltByteLength.GetOr(DefaultSaltByteLength),
      opts.secretByteLength.GetOr(DefaultSecretByteLength),
      NewTokenOptions(opts.token.GetOr(TokenPartial(None, None))));
    match CheckLengths(c.saltByteLength, c.secretByteLength)
    case Some(e) => Err(e)
    case None => Ok(c)
  }

  function OptionsOf(c: Config): ConfigOptions {
    ConfigOptions(Some(CookieAsPartial(c.cookie)), Some(c.excludePathPrefixes), Some(c.ignoreMethods),
                  Some(c.saltByteLength), Some(c.secretByteLength),
                  Some(TokenPartial(Some(c.token.responseHeader), c.token.value)))
  }

  /** Rebuilding from a configuration's own fields gives it back exactly when it is valid. */
  lemma RebuildConfig(c: Config)
    ensures NewConfig(OptionsOf(c)) == Ok(c) <==> Valid(c)
  {
    CookieOptionsMerge(c.cookie);
  }

  /** The defaults of `new Config()`. */
  lemma ConfigDefaults()
    ensures NewConfig(NoOptions).Ok?
    ensures var c := NewConfig(NoOptions).value;
      && c.excludePathPrefixes == ["/_next/"]
      && c.ignoreMethods == ["GET", "HEAD", "OPTIONS"]
      && c.saltByteLength == 8 && c.secretByteLength == 18
      && c.cookie == CookieOptions("", true, None, "_csrfSecret", "/", SameSiteStrict, true)
      && c.token.responseHeader == "X-CSRF-Token" && c.token.value.None?
  {
  }
}

/**
 * The original configuration (`config.js`): untyped objects merged one
 * level deep over a default object. A setting is any JavaScript value an
 * options object may hold; an object is a map from keys to settings.
 */
module OriginalConfig {
  import opened Prelude
  import opened Http
  import opened ConfigRules

  datatype Setting =
    | SText(s: string)
    | SBool(b: bool)
    | SNum(n: int)
    | SNull
    | SList(items: seq<string>)
    | SObject(fields: map<string, Setting>)
    | SFunction(f: Override)

  type Object = map<string, Setting>

  /**
   * `mergeShallow(values, defaults)`: exactly the keys of `defaults`, each
   * holding the supplied value when there is one (a key holding `undefined`
   * is a key left out) and the default otherwise.
   */
  function MergeShallow(values: Object, defaults: Object): (r: Object)
    ensures r.Keys == defaults.Keys
    ensures forall k :: k in values && k in defaults ==> r[k] == values[k]
    ensures forall k :: k in defaults && k !in values ==> r[k] == defaults[k]
  {
    map k | k in defaults :: if k in values then values[k] else defaults[k]
  }

  /** No options give the defaults back; merging is idempotent. */
  lemma MergeShallowDefaults(values: Object, defaults: Object)
    ensures MergeShallow(map[], defaults) == defaults
    ensures MergeShallow(MergeShallow(values, defaults), defaults) == MergeShallow(values, defaults)
    ensures MergeShallow(defaults, defaults) == defaults
  {
  }

  /** Merging over a merge is one merge in which the later values win; extra keys never matter. */
  lemma MergeShallowLaws(later: Object, earlier: Object, defaults: Object)
    ensures MergeShallow(later, MergeShallow(earlier, defaults)) == MergeShallow(earlier + later, defaults)
    ensures MergeShallow(later, defaults) == MergeShallow(map k | k in later && k in defaults :: later[k], defaults)
  {
  }

  /** `values || {}` followed by property reads: anything but an object supplies nothing. */
  function FieldsOf(values: Object, key: string): Object {
    if key in values && values[key].SObject? then values[key].fields else map[]
  }

  const CookieKey := "cookie"
  const TokenKey := "token"
  const SaltKey := "saltByteLength"
  const SecretKey := "secretByteLength"
  const IgnoreKey := "ignoreMethods"

  const DefaultCookie: Object := map[
    "domain" := SText(""),
    "httpOnly" := SBool(true),
    "maxAge" := SNull,
    "name" := SText("_csrfSecret"),
    "path" := SText("/"),
    "sameSite" := SText("strict"),
    "secure" := SBool(true)]

  const DefaultToken: Object := map[
    "responseHeader" := SText("x-csrf-token"),
    "value" := SNull]

  const DefaultConfig: Object := map[
    CookieKey := SObject(DefaultCookie),
    IgnoreKey := SList(["GET", "HEAD", "OPTIONS"]),
    SaltKey := SNum(8),
    SecretKey := SNum(18),
    TokenKey := SObject(DefaultToken)]

  /** The result of JavaScript's `Number(v)`, restricted to integers. */
  datatype Numeric = Num(n: int) | NaN

  predicate IsDigitChar(c: char) {
    '0' <= c <= '9'
  }

  function DecimalValue(s: string): int
    requires forall i :: 0 <= i < |s| ==> IsDigitChar(s[i])
  {
    if |s| == 0 then 0 else 10 * DecimalValue(s[..|s| - 1]) + (s[|s| - 1] as int - '0' as int)
  }

  /** `Number(s)` for the empty string and plain decimal digits; anything else is `NaN`. */
  function ParseDecimal(s: string): Numeric {
    if forall i :: 0 <= i < |s| ==> IsDigitChar(s[i]) then Num(DecimalValue(s)) else NaN
  }

  /** The number a relational comparison `v < 1` converts a setting to. */
  function ToNumber(v: Setting): Numeric {
    match v
    case SNum(n) => Num(n)
    case SNull => Num(0)
    case SBool(b) => Num(if b then 1 else 0)
    case SText(s) => ParseDecimal(s)
    case SList(items) =>
      if |items| == 0 then Num(0) else if |items| == 1 then ParseDecimal(items[0]) else NaN
    case _ => NaN
  }

  /** `v < 1 || v > 255`; every comparison with `NaN` is false. */
  predicate OutOfByteRange(v: Setting) {
    var x := ToNumber(v);
    x.Num? && !InByteRange(x.n)
  }

  /** `initConfig(options)`: merge, merge `cookie` and `token` one level deep, then range-check. */
  function InitConfig(options: Object): (r: Result<Object, ConfigError>)
    ensures r.Ok? ==> r.value.Keys == DefaultConfig.Keys
    ensures r.Ok? ==> r.value[IgnoreKey] == MergeShallow(options, DefaultConfig)[IgnoreKey]
    ensures r.Ok? ==> r.value[SaltKey] == MergeShallow(options, DefaultConfig)[SaltKey]
    ensures r.Ok? ==> r.value[SecretKey] == MergeShallow(options, DefaultConfig)[SecretKey]
    ensures r.Ok? ==> r.value[CookieKey] == SObject(MergeShallow(FieldsOf(options, CookieKey), DefaultCookie))
    ensures r.Ok? ==> r.value[TokenKey] == SObject(MergeShallow(FieldsOf(options, TokenKey), DefaultToken))
    ensures r.Ok? <==> !OutOfByteRange(MergeShallow(options, DefaultConfig)[SaltKey])
                       && !OutOfByteRange(MergeShallow(options, DefaultConfig)[SecretKey])
    ensures r.Err? ==> (r.error == SaltLengthOutOfRange <==> OutOfByteRange(MergeShallow(options, DefaultConfig)[SaltKey]))
  {
    var merged := MergeShallow(options, DefaultConfig);
    var config := merged[CookieKey := SObject(MergeShallow(FieldsOf(options, CookieKey), DefaultCookie))]
                        [TokenKey := SObject(MergeShallow(FieldsOf(options, TokenKey), DefaultToken))];
    if OutOfByteRange(config[SaltKey]) then Err(SaltLengthOutOfRange)
    else if OutOfByteRange(config[SecretKey]) then Err(SecretLengthOutOfRange)
    else Ok(config)
  }

  /** With no options, `initConfig` returns the defaults. */
  lemma InitConfigDefaults()
    ensures InitConfig(map[]) == Ok(DefaultConfig)
  {
    MergeShallowDefaults(map[], DefaultConfig);
    MergeShallowDefaults(map[], DefaultCookie);
    MergeShallowDefaults(map[], DefaultToken);
    assert FieldsOf(map[], CookieKey) == map[] && FieldsOf(map[], TokenKey) == map[];
    assert DefaultConfig[CookieKey] == SObject(DefaultCookie) && DefaultConfig[TokenKey] == SObject(DefaultToken);
    assert DefaultConfig[CookieKey := SObject(DefaultCookie)] == DefaultConfig;
    assert DefaultConfig[TokenKey := SObject(DefaultToken)] == DefaultConfig;
  }

  /** A numeric length throws exactly outside 1..255. */
  lemma NumericLengthChecks(salt: int, secret: int)
    ensures InitConfig(map[SaltKey := SNum(salt)]).Err? <==> !(1 <= salt <= 255)
    ensures InitConfig(map[SecretKey := SNum(secret)]).Err? <==> !(1 <= secret <= 255)
  {
    var a := MergeShallow(map[SaltKey := SNum(salt)], DefaultConfig);
    assert a[SaltKey] == SNum(salt) && a[SecretKey] == SNum(18);
    var b := MergeShallow(map[SecretKey := SNum(secret)], DefaultConfig);
    assert b[SaltKey] == SNum(8) && b[SecretKey] == SNum(secret);
  }

  /** JavaScript comparisons let a non-numeric length through. */
  lemma NonNumericLengthAccepted()
    ensures InitConfig(map[SaltKey := SText("eight")]).Ok?
  {
    var a := MergeShallow(map[SaltKey := SText("eight")], DefaultConfig);
    assert a[SaltKey] == SText("eight") && a[SecretKey] == SNum(18);
    assert !IsDigitChar("eight"[0]);
    assert ToNumber(a[SaltKey]) == NaN;
  }

  /** A numeric string is compared as its number, and `null` as 0. */
  lemma CoercedLengthsRejected()
    ensures InitConfig(map[SaltKey := SText("300")]).Err?
    ensures InitConfig(map[SaltKey := SNull]).Err?
  {
    var b := MergeShallow(map[SaltKey := SText("300")], DefaultConfig);
    assert b[SaltKey] == SText("300");
    assert DecimalValue("300") == 300 by {
      assert "300"[..2] == "30" && "30"[..1] == "3" && "3"[..0] == "";
    }
    assert ToNumber(b[SaltKey]) == Num(300);
    var c := MergeShallow(map[SaltKey := SNull], DefaultConfig);
    assert c[SaltKey] == SNull;
  }

  /** The settings `index.js` reads, in typed form. */
  datatype View = View(
    ignoreMethods: seq<string>,
    saltByteLength: int,
    secretByteLength: int,
    cookieName: string,
    cookie: Object,
    responseHeader: string,
    value: Option<Override>)

  /** The fields `index.js` reads hold values of the defaults' types. */
  predicate WellTyped(c: Object) {
    && IgnoreKey in c && c[IgnoreKey].SList?
    && SaltKey in c && c[SaltKey].SNum?
    && SecretKey in c && c[SecretKey].SNum?
    && CookieKey in c && c[CookieKey].SObject?
    && "name" in c[CookieKey].fields && c[CookieKey].fields["name"].SText?
    && TokenKey in c && c[TokenKey].SObject?
    && "responseHeader" in c[TokenKey].fields && c[TokenKey].fields["responseHeader"].SText?
    && "value" in c[TokenKey].fields
  }

  /**
   * A token `value` of `null` means no override; a function is the override;
   * calling anything else throws a `TypeError`.
   */
  function OverrideOf(v: Setting): (r: Option<Override>)
    ensures v.SNull? <==> r.None?
  {
    match v
    case SNull => None
    case SFunction(f) => Some(f)
    case _ => Some((req: Request) => Raised)
  }

  function ViewOf(c: Object): (v: View)
    requires WellTyped(c)
    ensures v.ignoreMethods == c[IgnoreKey].items
    ensures v.saltByteLength == c[SaltKey].n && v.secretByteLength == c[SecretKey].n
    ensures v.cookieName == c[CookieKey].fields["name"].s
    ensures v.responseHeader == c[TokenKey].fields["responseHeader"].s
  {
    var token := c[TokenKey].fields;
    View(c[IgnoreKey].items, c[SaltKey].n, c[SecretKey].n, c[CookieKey].fields["name"].s,
         c[CookieKey].fields, token["responseHeader"].s, OverrideOf(token["value"]))
  }

  /** Options whose fields have the defaults' types. */
  predicate TypedOptions(options: Object) {
    && (IgnoreKey in options ==> options[IgnoreKey].SList?)
    && (SaltKey in options ==> options[SaltKey].SNum?)
    && (SecretKey in options ==> options[SecretKey].SNum?)
    && (var cookie := FieldsOf(options, CookieKey); "name" in cookie ==> cookie["name"].SText?)
    && (var token := FieldsOf(options, TokenKey); "responseHeader" in token ==> token["responseHeader"].SText?)
  }

  /**
   * Well-typed options build a well-typed configuration with valid lengths,
   * which is what `index.js` reads.
   */
  lemma {:induction false} InitConfigWellTyped(options: Object)
    requires TypedOptions(options)
    requires InitConfig(options).Ok?
    ensures WellTyped(InitConfig(options).value)
    ensures InByteRange(ViewOf(InitConfig(options).value).saltByteLength)
    ensures InByteRange(ViewOf(InitConfig(options).value).secretByteLength)
  {
    MergedTopLevelTyped(options);
    var cookie := MergeShallow(FieldsOf(options, CookieKey), DefaultCookie);
    assert "name" in DefaultCookie && DefaultCookie["name"].SText?;
    assert "name" in cookie && cookie["name"].SText?;
    var token := MergeShallow(FieldsOf(options, TokenKey), DefaultToken);
    assert "responseHeader" in DefaultToken && DefaultToken["responseHeader"].SText? && "value" in DefaultToken;
    assert "responseHeader" in token && token["responseHeader"].SText? && "value" in token;
  }

  /** Merging typed options over the defaults keeps the types of the scalar fields `index.js` reads. */
  lemma MergedTopLevelTyped(options: Object)
    requires TypedOptions(options)
    ensures var m := MergeShallow(options, DefaultConfig);
      && m[IgnoreKey].SList? && m[SaltKey].SNum? && m[SecretKey].SNum?
  {
    assert DefaultConfig[IgnoreKey].SList? && DefaultConfig[SaltKey].SNum? && DefaultConfig[SecretKey].SNum?;
  }
}

=== FILE: extractor.dfy ===
/**
 * Where a request carries its CSRF token: a configured override function,
 * else the `x-csrf-token` header, else the body, read according to its
 * content type. Three generations of the extractor are modelled: the current
 * one (`shared/src/util.ts`), the Next.js/SvelteKit one (`src/util.ts`) and
 * the original JavaScript one (`util.js`).
 */
module Extractor {
  import opened Prelude
  import opened Json
  import opened Http

  /** The body field that carries the token. */
  const TokenField := "csrf_token"

  predicate IsDigit(c: char) {
    '0' <= c <= '9'
  }

  /** The length of the run of ASCII digits that starts `s`. */
  function LeadingDigits(s: string): (n: nat)
    ensures n <= |s|
    ensures forall i :: 0 <= i < n ==> IsDigit(s[i])
    ensures n < |s| ==> !IsDigit(s[n])
  {
    if |s| > 0 && IsDigit(s[0]) then 1 + LeadingDigits(s[1..]) else 0
  }

  /**
   * The form key test `^(\d+_)*field$`: the key is the field name, or a run
   * of digits and an underscore followed by a key that passes the test. A
   * group's digit run is always the longest one, since a digit is never `_`.
   */
  predicate IndexedKey(key: string, field: string)
    decreases |key|
  {
    key == field
    || (var n := LeadingDigits(key);
        0 < n < |key| && key[n] == '_' && IndexedKey(key[n + 1..], field))
  }

  /** A non-empty run of ASCII digits: one `\d+` of the key pattern. */
  predicate IsIndex(s: string) {
    |s| > 0 && forall i :: 0 <= i < |s| ==> IsDigit(s[i])
  }

  predicate AllIndices(indices: seq<string>) {
    forall k :: 0 <= k < |indices| ==> IsIndex(indices[k])
  }

  /** The `(\d+_)*` part of a key, one group per index. */
  function IndexPrefix(indices: seq<string>): string {
    if |indices| == 0 then "" else indices[0] + "_" + IndexPrefix(indices[1..])
  }

  /** Every key the pattern describes passes the test. */
  lemma {:induction false} IndexedKeyComplete(indices: seq<string>, field: string)
    requires AllIndices(indices)
    ensures IndexedKey(IndexPrefix(indices) + field, field)
    decreases |indices|
  {
    if |indices| > 0 {
      var idx := indices[0];
      var rest := IndexPrefix(indices[1..]) + field;
      var key := IndexPrefix(indices) + field;
      assert key == idx + "_" + rest;
      assert AllIndices(indices[1..]) by {
        forall k | 0 <= k < |indices[1..]| ensures IsIndex(indices[1..][k]) {
          assert indices[1..][k] == indices[k + 1];
        }
      }
      assert key == idx + ("_" + rest);
      LeadingDigitsOfIndex(idx, "_" + rest);
      assert key[|idx|] == '_';
      assert key[|idx| + 1..] == rest;
      IndexedKeyComplete(indices[1..], field);
    }
  }

  /** The digit run of `idx + rest` is `idx` when `rest` starts with a non-digit. */
  lemma {:induction false} LeadingDigitsOfIndex(idx: string, rest: string)
    requires forall i :: 0 <= i < |idx| ==> IsDigit(idx[i])
    requires |rest| > 0 && !IsDigit(rest[0])
    ensures LeadingDigits(idx + rest) == |idx|
    decreases |idx|
  {
    if |idx| > 0 {
      assert (idx + rest)[1..] == idx[1..] + rest;
      LeadingDigitsOfIndex(idx[1..], rest);
    } else {
      assert idx + rest == rest;
    }
  }

  /** Every key that passes the test is a sequence of index groups and the field name. */
  lemma {:induction false} IndexedKeySound(key: string, field: string) returns (indices: seq<string>)
    requires IndexedKey(key, field)
    ensures AllIndices(indices)
    ensures key == IndexPrefix(indices) + field
    decreases |key|
  {
    if key == field {
      indices := [];
    } else {
      var n := LeadingDigits(key);
      var more := IndexedKeySound(key[n + 1..], field);
      indices := [key[..n]] + more;
      assert indices[1..] == more;
      assert key == key[..n] + "_" + key[n + 1..];
    }
  }

  /** How a form key is compared with the field name. */
  datatype KeyRule = ExactKey | IndexedKeys

  predicate KeyMatches(rule: KeyRule, key: string, field: string) {
    match rule
    case ExactKey => key == field
    case IndexedKeys => IndexedKey(key, field)
  }

  /** The position of the first form entry whose key matches, in body order. */
  function FirstMatch(entries: seq<(string, FormValue)>, rule: KeyRule, field: string): (r: Option<nat>)
    ensures r.Some? ==> r.value < |entries| && KeyMatches(rule, entries[r.value].0, field)
    ensures r.Some? ==> forall j :: 0 <= j < r.value ==> !KeyMatches(rule, entries[j].0, field)
    ensures r.None? <==> forall j :: 0 <= j < |entries| ==> !KeyMatches(rule, entries[j].0, field)
  {
    if |entries| == 0 then None
    else if KeyMatches(rule, entries[0].0, field) then Some(0)
    else
      match FirstMatch(entries[1..], rule, field)
      case None => None
      case Some(i) => Some(i + 1)
  }

  /** The value of the first matching entry (`formData.get` for an exact key). */
  function FormLookup(entries: seq<(string, FormValue)>, rule: KeyRule, field: string): (r: Option<FormValue>)
    ensures r.Some? <==> exists j :: 0 <= j < |entries| && KeyMatches(rule, entries[j].0, field)
  {
    match FirstMatch(entries, rule, field)
    case None => None
    case Some(i) => Some(entries[i].1)
  }

  /** The form branch of the two typed extractors: a matching string entry, else "". */
  function FormTokenString(entries: seq<(string, FormValue)>, rule: KeyRule): string {
    match FormLookup(entries, rule, TokenField)
    case Some(FormText(s)) => s
    case _ => ""
  }

  /** Entry `i` is the first entry whose key matches the field under `rule`. */
  predicate FirstKeyAt(entries: seq<(string, FormValue)>, rule: KeyRule, i: int) {
    && 0 <= i < |entries|
    && KeyMatches(rule, entries[i].0, TokenField)
    && forall j :: 0 <= j < i ==> !KeyMatches(rule, entries[j].0, TokenField)
  }

  /** No entry's key matches the field under `rule`. */
  predicate NoKey(entries: seq<(string, FormValue)>, rule: KeyRule) {
    forall j :: 0 <= j < |entries| ==> !KeyMatches(rule, entries[j].0, TokenField)
  }

  /** `typeof v === 'string' ? v : ''` for a form value. */
  function FormString(v: FormValue): string {
    if v.FormText? then v.s else ""
  }

  /** The first matching entry is the one `FirstMatch` finds; with no match it finds none. */
  lemma FirstKeyDecides(entries: seq<(string, FormValue)>, rule: KeyRule)
    ensures forall i :: FirstKeyAt(entries, rule, i) ==> FirstMatch(entries, rule, TokenField) == Some(i)
    ensures NoKey(entries, rule) ==> FirstMatch(entries, rule, TokenField).None?
    ensures forall i :: FirstKeyAt(entries, rule, i) ==> FormLookup(entries, rule, TokenField) == Some(entries[i].1)
    ensures NoKey(entries, rule) ==> FormLookup(entries, rule, TokenField).None?
  {
    forall i | FirstKeyAt(entries, rule, i)
      ensures FirstMatch(entries, rule, TokenField) == Some(i)
    {
      var m := FirstMatch(entries, rule, TokenField);
      assert KeyMatches(rule, entries[i].0, TokenField);
    }
  }

  /** The body is a JSON object whose `csrf_token` is a string. */
  predicate HasStringToken(body: Json) {
    body.JObject? && TokenField in body.fields && body.fields[TokenField].JString?
  }

  /** The extractor reads the body: no override and no `x-csrf-token` header. */
  predicate ReadsBody(req: Request, override: Option<Override>) {
    override.None? && TokenHeader !in req.headers
  }

  /** A content type the current extractor treats as a server action. */
  predicate ServerActionType(ct: string) {
    !IsFormType(ct) && !IsJsonType(ct) && StartsWith(ct, TextPlain)
  }

  /** The text parsed as a non-empty JSON array of arguments. */
  predicate HasArgs(req: Request) {
    req.json.Some? && req.json.value.JArray? && |req.json.value.items| > 0
  }

  /** A server action whose body is a non-empty argument array, read by the extractor. */
  predicate ServerActionArgs(req: Request, override: Option<Override>) {
    ReadsBody(req, override) && ServerActionType(ContentType(req)) && HasArgs(req)
  }

  /** An object argument carrying a truthy `csrf_token`. */
  predicate TruthyToken(arg: Json) {
    arg.JObject? && TokenField in arg.fields && Truthy(arg.fields[TokenField])
  }

  function FirstArg(req: Request): Json
    requires HasArgs(req)
  {
    req.json.value.items[0]
  }

  /**
   * The JSON branch of the two typed extractors: reading a property of
   * `null` throws; a string `csrf_token` is the token; anything else gives "".
   */
  function JsonBodyToken(body: Json): Extraction {
    match body
    case JNull => Raised
    case JObject(fields) =>
      if TokenField in fields && fields[TokenField].JString? then Found(Js(fields[TokenField])) else Found(Str(""))
    case _ => Found(Str(""))
  }

  /**
   * The `text/plain` branch (Next.js server actions): the body parsed as a
   * JSON array of arguments, whose first argument is the token, or holds it.
   * Reading a property of a `null` first argument throws and is caught.
   */
  function ServerActionToken(parsed: Option<Json>, raw: string): Value {
    match parsed
    case Some(JArray(args)) =>
      if |args| == 0 then Str(raw)
      else
        (match args[0]
         case JString(s) => Str(s)
         case JNull => Str(raw)
         case JArray(_) => Str("")
         case JObject(fields) =>
           if TokenField in fields && Truthy(fields[TokenField]) then Js(fields[TokenField]) else Str("")
         case _ => Js(args[0]))
    case _ => Str(raw)
  }

  predicate IsFormType(ct: string) {
    ct == FormUrlEncoded || StartsWith(ct, Multipart)
  }

  predicate IsJsonType(ct: string) {
    ct == JsonType || ct == LdJsonType
  }

  /** Body parsing fails where the content type makes the code parse it. */
  predicate BodyUnparsable(req: Request, ct: string) {
    (IsFormType(ct) && req.form.None?)
    || (IsJsonType(ct) && (req.json.None? || req.json == Some(JNull)))
  }

  /** A form content type is never a JSON one. */
  lemma FormIsNotJson(ct: string)
    ensures IsFormType(ct) ==> !IsJsonType(ct)
  {
    if StartsWith(ct, Multipart) {
      assert ct[0] == Multipart[0];
    }
  }

  /** The current extractor. */
  function GetTokenString(req: Request, override: Option<Override>): (r: Extraction)
    ensures override.None? && TokenHeader in req.headers ==> r == Found(Str(req.headers[TokenHeader]))
    ensures r.Raised? ==> override.Some? || (TokenHeader !in req.headers && BodyUnparsable(req, ContentType(req)))
    ensures override.None? && r.Found? && !IsString(r.value) ==> StartsWith(ContentType(req), TextPlain)
    ensures ReadsBody(req, override) && BodyUnparsable(req, ContentType(req)) ==> r.Raised?
    // form: the first entry whose key is `(\d+_)*csrf_token` decides; a file or no match gives ""
    ensures ReadsBody(req, override) && IsFormType(ContentType(req)) && req.form.Some? ==>
              forall i :: FirstKeyAt(req.form.value, IndexedKeys, i) ==> r == Found(Str(FormString(req.form.value[i].1)))
    ensures ReadsBody(req, override) && IsFormType(ContentType(req)) && req.form.Some? && NoKey(req.form.value, IndexedKeys) ==>
              r == Found(Str(""))
    // JSON: a string `csrf_token` is the token, anything else gives ""
    ensures ReadsBody(req, override) && IsJsonType(ContentType(req)) && req.json.Some? && HasStringToken(req.json.value) ==>
              r == Found(Js(req.json.value.fields[TokenField]))
    ensures (ReadsBody(req, override) && IsJsonType(ContentType(req)) && req.json.Some? && req.json.value != JNull
               && !HasStringToken(req.json.value)) ==> r == Found(Str(""))
    // server actions: the first argument, or the truthy `csrf_token` of an object argument
    ensures ReadsBody(req, override) && ServerActionType(ContentType(req)) && !HasArgs(req) ==> r == Found(Str(req.text))
    ensures ServerActionArgs(req, override) && !FirstArg(req).JNull? && !FirstArg(req).JArray? && !FirstArg(req).JObject? ==>
              r == Found(Js(FirstArg(req)))
    ensures ServerActionArgs(req, override) && FirstArg(req).JNull? ==> r == Found(Str(req.text))
    ensures ServerActionArgs(req, override) && FirstArg(req).JArray? ==> r == Found(Str(""))
    ensures ServerActionArgs(req, override) && FirstArg(req).JObject? && TruthyToken(FirstArg(req)) ==>
              r == Found(Js(FirstArg(req).fields[TokenField]))
    ensures ServerActionArgs(req, override) && FirstArg(req).JObject? && !TruthyToken(FirstArg(req)) ==> r == Found(Str(""))
    // any other content type: the raw text
    ensures (ReadsBody(req, override) && !IsFormType(ContentType(req)) && !IsJsonType(ContentType(req))
               && !StartsWith(ContentType(req), TextPlain)) ==> r == Found(Str(req.text))
  {
    if override.Some? then override.value(req)
    else
      match Header(req, TokenHeader)
      case Some(token) => Found(Str(token))
      case None =>
        var ct := ContentType(req);
        FormIsNotJson(ct);
        if IsFormType(ct) then
          match req.form
          case None => Raised
          case Some(entries) => FirstKeyDecides(entries, IndexedKeys); Found(Str(FormTokenString(entries, IndexedKeys)))
        else if IsJsonType(ct) then
          match req.json
          case None => Raised
          case Some(body) => JsonBodyToken(body)
        else if StartsWith(ct, TextPlain) then Found(ServerActionToken(req.json, req.text))
        else Found(Str(req.text))
  }

  /** The `src/util.ts` extractor: exact `csrf_token` key, url-encoded forms only, no server actions. */
  function GetTokenStringLegacy(req: Request, override: Option<Override>): (r: Extraction)
    ensures override.None? && TokenHeader in req.headers ==> r == Found(Str(req.headers[TokenHeader]))
    ensures override.None? && r.Found? ==> IsString(r.value)
    ensures r.Raised? ==> override.Some? || (TokenHeader !in req.headers && BodyUnparsable(req, ContentType(req)))
    ensures ReadsBody(req, override) && ContentType(req) == FormUrlEncoded && req.form.None? ==> r.Raised?
    ensures ReadsBody(req, override) && IsJsonType(ContentType(req)) && (req.json.None? || req.json == Some(JNull)) ==> r.Raised?
    // url-encoded form: the first entry named exactly `csrf_token` decides; a file or no such entry gives ""
    ensures ReadsBody(req, override) && ContentType(req) == FormUrlEncoded && req.form.Some? ==>
              forall i :: FirstKeyAt(req.form.value, ExactKey, i) ==> r == Found(Str(FormString(req.form.value[i].1)))
    ensures ReadsBody(req, override) && ContentType(req) == FormUrlEncoded && req.form.Some? && NoKey(req.form.value, ExactKey) ==>
              r == Found(Str(""))
    // JSON: a string `csrf_token` is the token, anything else gives ""
    ensures ReadsBody(req, override) && IsJsonType(ContentType(req)) && req.json.Some? && HasStringToken(req.json.value) ==>
              r == Found(Js(req.json.value.fields[TokenField]))
    ensures (ReadsBody(req, override) && IsJsonType(ContentType(req)) && req.json.Some? && req.json.value != JNull
               && !HasStringToken(req.json.value)) ==> r == Found(Str(""))
    // any other content type, multipart included: the raw text
    ensures ReadsBody(req, override) && ContentType(req) != FormUrlEncoded && !IsJsonType(ContentType(req)) ==>
              r == Found(Str(req.text))
  {
    if override.Some? then override.value(req)
    else
      match Header(req, TokenHeader)
      case Some(token) => Found(Str(token))
      case None =>
        var ct := ContentType(req);
        if ct == FormUrlEncoded then
          match req.form
          case None => Raised
          case Some(entries) => FirstKeyDecides(entries, ExactKey); Found(Str(FormTokenString(entries, ExactKey)))
        else if IsJsonType(ct) then
          match req.json
          case None => Raised
          case Some(body) => JsonBodyToken(body)
        else Found(Str(req.text))
  }

  /**
   * The `util.js` extractor: the same routing as `src/util.ts`, but the form
   * entry or JSON property is returned untyped, so a missing field gives
   * `null` (form) or `undefined` (JSON), and a file entry a `File`.
   */
  function GetTokenStringOriginal(req: Request, override: Option<Override>): (r: Extraction)
    ensures override.None? && TokenHeader in req.headers ==> r == Found(Str(req.headers[TokenHeader]))
    ensures r.Raised? ==> override.Some? || (TokenHeader !in req.headers && BodyUnparsable(req, ContentType(req)))
    ensures ReadsBody(req, override) && ContentType(req) == FormUrlEncoded && req.form.None? ==> r.Raised?
    ensures ReadsBody(req, override) && IsJsonType(ContentType(req)) && (req.json.None? || req.json == Some(JNull)) ==> r.Raised?
    // url-encoded form: `formData.get`, so the first `csrf_token` entry as it is, and `null` without one
    ensures ReadsBody(req, override) && ContentType(req) == FormUrlEncoded && req.form.Some? ==>
              forall i :: FirstKeyAt(req.form.value, ExactKey, i) ==>
                r == Found(if req.form.value[i].1.FormText? then Str(req.form.value[i].1.s) else FileValue)
    ensures ReadsBody(req, override) && ContentType(req) == FormUrlEncoded && req.form.Some? && NoKey(req.form.value, ExactKey) ==>
              r == Found(Js(JNull))
    // JSON: the `csrf_token` property whatever its type, `undefined` when absent
    ensures (ReadsBody(req, override) && IsJsonType(ContentType(req)) && req.json.Some? && req.json.value.JObject?
               && TokenField in req.json.value.fields) ==> r == Found(Js(req.json.value.fields[TokenField]))
    ensures (ReadsBody(req, override) && IsJsonType(ContentType(req)) && req.json.Some? && req.json.value != JNull
               && !(req.json.value.JObject? && TokenField in req.json.value.fields)) ==> r == Found(Undefined)
    // any other content type, multipart included: the raw text
    ensures ReadsBody(req, override) && ContentType(req) != FormUrlEncoded && !IsJsonType(ContentType(req)) ==>
              r == Found(Str(req.text))
  {
    if override.Some? then override.value(req)
    else
      match Header(req, TokenHeader)
      case Some(token) => Found(Str(token))
      case None =>
        var ct := ContentType(req);
        if ct == FormUrlEncoded then
          match req.form
          case None => Raised
          case Some(entries) =>
            FirstKeyDecides(entries, ExactKey);
            match FormLookup(entries, ExactKey, TokenField)
            case None => Found(Js(JNull))
            case Some(FormText(s)) => Found(Str(s))
            case Some(FormFile) => Found(FileValue)
        else if IsJsonType(ct) then
          match req.json
          case None => Raised
          case Some(JNull) => Raised
          case Some(JObject(fields)) => Found(if TokenField in fields then Js(fields[TokenField]) else Undefined)
          case Some(_) => Found(Undefined)
        else Found(Str(req.text))
  }

  /** A configured override decides alone, in every generation. */
  lemma OverrideDecides(req: Request, f: Override)
    ensures GetTokenString(req, Some(f)) == f(req)
    ensures GetTokenStringLegacy(req, Some(f)) == f(req)
    ensures GetTokenStringOriginal(req, Some(f)) == f(req)
  {
  }

  /** Once the header is present, the body and its content type are never read. */
  lemma HeaderShadowsBody(a: Request, b: Request)
    requires TokenHeader in a.headers && b.headers == a.headers
    ensures GetTokenString(a, None) == GetTokenString(b, None)
    ensures GetTokenStringLegacy(a, None) == GetTokenStringLegacy(b, None)
    ensures GetTokenStringOriginal(a, None) == GetTokenStringOriginal(b, None)
  {
  }

  /**
   * Whenever the form body has a string entry with exactly the key
   * `csrf_token` and no earlier entry is an indexed variant of it, the
   * current and the `src/util.ts` extractors agree on a url-encoded form.
   */
  lemma {:induction false} ExactKeyIsIndexed(entries: seq<(string, FormValue)>, i: nat)
    requires i < |entries| && entries[i].0 == TokenField
    requires forall j :: 0 <= j < i ==> !IndexedKey(entries[j].0, TokenField)
    ensures FirstMatch(entries, IndexedKeys, TokenField) == Some(i)
    ensures FirstMatch(entries, ExactKey, TokenField) == Some(i)
  {
    var r := FirstMatch(entries, IndexedKeys, TokenField);
    assert KeyMatches(IndexedKeys, entries[i].0, TokenField);
    assert r.Some? && r.value <= i;
    assert forall j :: 0 <= j < i ==> !KeyMatches(ExactKey, entries[j].0, TokenField);
    assert KeyMatches(ExactKey, entries[i].0, TokenField);
  }

  /** Only the text/plain branch of the current extractor can return something other than a string. */
  lemma NonStringOnlyFromServerAction(req: Request)
    requires TokenHeader !in req.headers
    requires GetTokenString(req, None).Found? && !IsString(GetTokenString(req, None).value)
    ensures StartsWith(ContentType(req), TextPlain)
    ensures req.json.Some? && req.json.value.JArray? && |req.json.value.items| > 0
    ensures var first := req.json.value.items[0];
      first.JNumber? || first.JBool? || (first.JObject? && TokenField in first.fields && first.fields[TokenField] == GetTokenString(req, None).value.json)
  {
    var ct := ContentType(req);
    var r := GetTokenString(req, None);
    assert !IsFormType(ct) && !IsJsonType(ct);
    assert r == Found(ServerActionToken(req.json, req.text));
  }

  /** The header scenario of the repository's tests. */
  lemma HeaderScenario()
    ensures GetTokenString(Request("POST", "/", map[TokenHeader := "my-token"], None, None, ""), None) == Found(Str("my-token"))
  {
  }

  /** A url-encoded form with the plain key, and a server-action form with an indexed key. */
  lemma FormScenarios()
    ensures var form := [("a", FormText("1")), ("csrf_token", FormText("my-token"))];
      GetTokenString(Request("POST", "/", map["content-type" := FormUrlEncoded], Some(form), None, ""), None) == Found(Str("my-token"))
    ensures var form := [("2_csrf_token", FormText("my-token"))];
      GetTokenString(Request("POST", "/", map["content-type" := "multipart/form-data; boundary=x"], Some(form), None, ""), None) == Found(Str("my-token"))
  {
    assert IndexedKey("csrf_token", TokenField);
    assert LeadingDigits("a") == 0;
    assert !IndexedKey("a", TokenField);
    assert LeadingDigits("2_csrf_token") == 1 by {
      assert "2_csrf_token"[1..] == "_csrf_token";
    }
    assert "2_csrf_token"[2..] == TokenField;
    assert IndexedKey("2_csrf_token", TokenField);
    assert StartsWith("multipart/form-data; boundary=x", Multipart);
  }

  /** JSON bodies, a raw body, and a server-action argument array. */
  lemma BodyScenarios()
    ensures var body := JObject(map[TokenField := JString("my-token")]);
      GetTokenString(Request("POST", "/", map["content-type" := LdJsonType], None, Some(body), ""), None) == Found(Str("my-token"))
    ensures GetTokenString(Request("POST", "/", map["content-type" := "xxx"], None, None, "my-token"), None) == Found(Str("my-token"))
    ensures GetTokenString(Request("POST", "/", map[], None, None, "my-token"), None) == Found(Str("my-token"))
    ensures var body := JArray([JString("my-token"), JNumber("1")]);
      GetTokenString(Request("POST", "/", map["content-type" := "text/plain;charset=UTF-8"], None, Some(body), ""), None) == Found(Str("my-token"))
  {
    assert !StartsWith("xxx", Multipart) && !StartsWith("xxx", TextPlain);
    assert !IsFormType(LdJsonType) && IsJsonType(LdJsonType) by {
      assert LdJsonType[0] != Multipart[0];
    }
    var plain := "text/plain;charset=UTF-8";
    assert !IsFormType(plain) && !IsJsonType(plain) by {
      assert plain[0] != Multipart[0];
    }
    assert StartsWith(plain, TextPlain);
  }
}

=== FILE: hosts.dfy ===
/**
 * `createCsrfProtect`'s closure, in its corrected form (`src/lib/protect.ts`)
 * and as `shared/src/protect.ts` writes it. The closure reports a
 * failed verification by throwing `CsrfError`, and a skipped path by
 * returning `undefined`.
 */
module Protect {
  import opened Prelude
  import opened Http
  import opened Codec
  import opened Pipeline
  import opened SharedConfig

  /** `{ ...config.cookie, value }`, the argument of `setCookie`. */
  datatype Cookie = Cookie(options: CookieOptions, value: string)

  /** How the returned promise settles. */
  datatype Completion = Returned(token: Option<string>) | ThrewCsrfError | ThrewOther

  /** One call: the cookie handed to `setCookie` (if any) and the completion. */
  datatype Call = Call(setCookie: Option<Cookie>, completion: Completion)

  function SettingsOf(c: Config, override: Option<Override>): Settings {
    Settings(c.excludePathPrefixes, c.ignoreMethods, c.cookie.name, override)
  }

  /** The secret and salt have the configured lengths, as `createSecret` and `_createSalt` promise. */
  predicate Draws(c: Config, e: Entropy) {
    |e.secret| == c.secretByteLength && |e.salt| == c.saltByteLength
  }

  function CallOf(c: Config, o: Outcome): Call {
    var cookie := if o.PassThrough? || o.setCookie.None? then None else Some(Cookie(c.cookie, o.setCookie.value));
    match o
    case PassThrough => Call(None, Returned(None))
    case Reject(_) => Call(cookie, ThrewCsrfError)
    case Issue(_, token) => Call(cookie, Returned(Some(token)))
    case Fault(_) => Call(cookie, ThrewOther)
  }

  /** The closure of `src/lib/protect.ts`: the override is `config.token.value`. */
  function CsrfProtect(c: Config, req: Request, jar: map<string, string>, e: Entropy, hash: HashFn): (r: Call)
    ensures r.completion == Returned(None) <==> Excluded(c.excludePathPrefixes, req.pathname)
    ensures r.setCookie.Some? <==> !Excluded(c.excludePathPrefixes, req.pathname) && c.cookie.name !in jar
    ensures r.setCookie.Some? ==> r.setCookie.value.options == c.cookie && Atou(r.setCookie.value.value) == e.secret
    ensures r.completion.ThrewCsrfError? ==> req.verb !in c.ignoreMethods
    ensures r.setCookie.Some? ==> r.setCookie.value == Cookie(c.cookie, Utoa(e.secret))
    ensures r.completion.ThrewCsrfError? <==>
              !Excluded(c.excludePathPrefixes, req.pathname) && FailsCheck(Current, SettingsOf(c, c.token.value), req, jar, e, hash)
    ensures r.completion.ThrewOther? <==>
              !Excluded(c.excludePathPrefixes, req.pathname) && Raises(Current, SettingsOf(c, c.token.value), req, jar, e, hash)
    ensures r.completion.Returned? && r.completion.token.Some? && Draws(c, e) ==>
              |Atou(r.completion.token.value)| == MinTokenLength + c.saltByteLength
  {
    var o := Run(Current, SettingsOf(c, c.token.value), req, jar, e, hash);
    CallOfOutcome(c, o);
    CallOf(c, o)
  }

  /** How each outcome of the decision surfaces through the closure. */
  lemma CallOfOutcome(c: Config, o: Outcome)
    ensures CallOf(c, o).completion == Returned(None) <==> o.PassThrough?
    ensures CallOf(c, o).completion.ThrewCsrfError? <==> o.Reject?
    ensures CallOf(c, o).completion.ThrewOther? <==> o.Fault?
    ensures CallOf(c, o).setCookie.Some? <==> !o.PassThrough? && o.setCookie.Some?
    ensures CallOf(c, o).setCookie.Some? ==> CallOf(c, o).setCookie.value == Cookie(c.cookie, o.setCookie.value)
    ensures CallOf(c, o).completion.Returned? && CallOf(c, o).completion.token.Some? ==>
              o.Issue? && CallOf(c, o).completion.token.value == o.token
  {
  }

  /**
   * The closure as `shared/src/protect.ts` writes it: the whole `config.token`
   * object is passed where the extractor expects an override function. It is
   * never `undefined`, so the extractor calls it, and calling an object
   * throws a `TypeError`.
   */
  function TokenOptionsCalled(req: Request): Extraction {
    Raised
  }

  function CsrfProtectAsWritten(c: Config, req: Request, jar: map<string, string>, e: Entropy, hash: HashFn): (r: Call)
    ensures req.verb in c.ignoreMethods ==> r == CsrfProtect(c, req, jar, e, hash)
  {
    CallOf(c, Run(Current, SettingsOf(c, Some(TokenOptionsCalled)), req, jar, e, hash))
  }

  /**
   * As written, every checked request fails with a `TypeError`: no token is
   * ever verified, and `CsrfError` is never thrown.
   */
  lemma AsWrittenNeverVerifies(c: Config, req: Request, jar: map<string, string>, e: Entropy, hash: HashFn)
    requires !Excluded(c.excludePathPrefixes, req.pathname) && req.verb !in c.ignoreMethods
    ensures CsrfProtectAsWritten(c, req, jar, e, hash).completion == ThrewOther
  {
  }

  /** The request carrying `token` in its header, and the browser's cookie jar after `call`. */
  function Echo(c: Config, call: Call, jar: map<string, string>): map<string, string> {
    if call.setCookie.Some? then jar[c.cookie.name := call.setCookie.value.value] else jar
  }

  /**
   * With the override left unset, a token the corrected closure returns is
   * accepted on the next checked request that echoes it in the header.
   */
  lemma ProtectAcceptsEchoedToken(c: Config, first: Request, jar: map<string, string>, e1: Entropy,
                                  next: Request, e2: Entropy, hash: HashFn)
    requires Valid(c) && Draws(c, e1) && c.token.value.None?
    requires CsrfProtect(c, first, jar, e1, hash).completion.Returned?
    requires CsrfProtect(c, first, jar, e1, hash).completion.token.Some?
    requires !Excluded(c.excludePathPrefixes, next.pathname)
    ensures var call := CsrfProtect(c, first, jar, e1, hash);
      var req := WithTokenHeader(next, call.completion.token.value);
      var r := CsrfProtect(c, req, Echo(c, call, jar), e2, hash);
      r.completion.Returned? && r.completion.token.Some?
  {
    var s := SettingsOf(c, c.token.value);
    var o := Run(Current, s, first, jar, e1, hash);
    var call := CsrfProtect(c, first, jar, e1, hash);
    IssueCall(c, o);
    var jar' := Store(jar, c.cookie.name, o.setCookie);
    assert Echo(c, call, jar) == jar';
    EchoedTokenAccepted(Current, s, first, jar, e1, next, e2, hash);
    var req := WithTokenHeader(next, o.token);
    IssueCall(c, Run(Current, s, req, jar', e2, hash));
  }

  /** The call for an issued outcome returns its token, and echoing it stores the cookie the outcome set. */
  lemma IssueCall(c: Config, o: Outcome)
    requires o.Issue?
    ensures CallOf(c, o).completion == Returned(Some(o.token))
    ensures forall jar :: Echo(c, CallOf(c, o), jar) == Store(jar, c.cookie.name, o.setCookie)
  {
  }

  /** The same echo through the closure as written fails. */
  lemma AsWrittenRejectsEchoedToken(c: Config, first: Request, jar: map<string, string>, e1: Entropy,
                                    next: Request, e2: Entropy, hash: HashFn)
    requires CsrfProtectAsWritten(c, first, jar, e1, hash).completion.Returned?
    requires CsrfProtectAsWritten(c, first, jar, e1, hash).completion.token.Some?
    requires !Excluded(c.excludePathPrefixes, next.pathname) && next.verb !in c.ignoreMethods
    ensures var call := CsrfProtectAsWritten(c, first, jar, e1, hash);
      var req := WithTokenHeader(next, call.completion.token.value);
      CsrfProtectAsWritten(c, req, Echo(c, call, jar), e2, hash).completion == ThrewOther
  {
  }
}

/**
 * The Next.js handler and middleware (`src/nextjs.ts`). The handler mutates
 * the prepared response (cookie, token header) and returns an `Error` value
 * on a failed verification; the middleware turns that into a 403 response.
 */
module NextHandler {
  import opened Prelude
  import opened Http
  import opened Codec
  import opened Pipeline
  import opened LegacyConfig

  /** `response.cookies.set({ ...config.cookie, value })`. */
  datatype Cookie = Cookie(options: CookieOptions, value: string)

  /**
   * What the handler did to the prepared response, and whether it returned
   * an `Error`; `HandlerThrew` is a rejected promise.
   */
  datatype Handled =
    | Handled(setCookie: Option<Cookie>, tokenHeader: Option<(string, string)>, error: bool)
    | HandlerThrew

  function SettingsOf(c: Config): Settings {
    Settings(c.excludePathPrefixes, c.ignoreMethods, c.cookie.name, c.token.value)
  }

  function CookieOf(c: Config, setCookie: Option<string>): Option<Cookie> {
    if setCookie.Some? then Some(Cookie(c.cookie, setCookie.value)) else None
  }

  /** `createHandler(opts)`'s function. */
  function Handler(c: Config, req: Request, jar: map<string, string>, e: Entropy, hash: HashFn): (r: Handled)
    ensures Excluded(c.excludePathPrefixes, req.pathname) ==> r == Handled(None, None, false)
    ensures r.Handled? && r.error ==> r.tokenHeader.None? && req.verb !in c.ignoreMethods
    ensures r.Handled? && r.tokenHeader.Some? ==>
              r.tokenHeader.value.0 == c.token.responseHeader && AtouRaising(r.tokenHeader.value.1).Some?
    ensures r.Handled? && r.setCookie.Some? ==> c.cookie.name !in jar && Atou(r.setCookie.value.value) == e.secret
    ensures r.Handled? && !Excluded(c.excludePathPrefixes, req.pathname) && c.cookie.name !in jar ==>
              r.setCookie == Some(Cookie(c.cookie, Utoa(e.secret)))
    ensures r.Handled? && r.error <==>
              !Excluded(c.excludePathPrefixes, req.pathname) && FailsCheck(Intermediate, SettingsOf(c), req, jar, e, hash)
    ensures r.HandlerThrew? <==>
              !Excluded(c.excludePathPrefixes, req.pathname) && Raises(Intermediate, SettingsOf(c), req, jar, e, hash)
    ensures r.Handled? && !r.error && !Excluded(c.excludePathPrefixes, req.pathname) ==>
              && Run(Intermediate, SettingsOf(c), req, jar, e, hash).Issue?
              && r.tokenHeader == Some((c.token.responseHeader, Run(Intermediate, SettingsOf(c), req, jar, e, hash).token))
  {
    match Run(Intermediate, SettingsOf(c), req, jar, e, hash)
    case PassThrough => Handled(None, None, false)
    case Reject(sc) => Handled(CookieOf(c, sc), None, true)
    case Issue(sc, token) => Handled(CookieOf(c, sc), Some((c.token.responseHeader, token)), false)
    case Fault(_) => HandlerThrew
  }

  /** The middleware's response: the prepared one, or a fresh 403 without the handler's cookie. */
  datatype Response =
    | Next(setCookie: Option<Cookie>, tokenHeader: Option<(string, string)>)
    | Forbidden
    | MiddlewareThrew

  /** `createMiddleware(opts)`'s function. */
  function Middleware(c: Config, req: Request, jar: map<string, string>, e: Entropy, hash: HashFn): (r: Response)
    ensures r.Forbidden? <==> Handler(c, req, jar, e, hash).Handled? && Handler(c, req, jar, e, hash).error
    ensures r.MiddlewareThrew? <==> Handler(c, req, jar, e, hash).HandlerThrew?
    ensures r.Next? ==> r.setCookie == Handler(c, req, jar, e, hash).setCookie
    ensures r.Next? ==> r.tokenHeader == Handler(c, req, jar, e, hash).tokenHeader
  {
    match Handler(c, req, jar, e, hash)
    case HandlerThrew => MiddlewareThrew
    case Handled(cookie, header, error) => if error then Forbidden else Next(cookie, header)
  }

  /**
   * A token the handler puts in the response header is accepted on the next
   * request that echoes it, once the browser has stored the cookie.
   */
  lemma HeaderTokenAccepted(c: Config, first: Request, jar: map<string, string>, e1: Entropy,
                            next: Request, e2: Entropy, hash: HashFn)
    requires |e1.salt| <= 255 && c.token.value.None?
    requires Handler(c, first, jar, e1, hash).Handled? && Handler(c, first, jar, e1, hash).tokenHeader.Some?
    requires !Excluded(c.excludePathPrefixes, next.pathname)
    ensures var h := Handler(c, first, jar, e1, hash);
      var jar' := if h.setCookie.Some? then jar[c.cookie.name := h.setCookie.value.value] else jar;
      var h' := Handler(c, WithTokenHeader(next, h.tokenHeader.value.1), jar', e2, hash);
      h'.Handled? && !h'.error && h'.tokenHeader.Some?
  {
    var s := SettingsOf(c);
    EchoedTokenAccepted(Intermediate, s, first, jar, e1, next, e2, hash);
  }

  /**
   * This generation's `atou` raises on text that is not base64, so a
   * malformed cookie or a malformed token makes the middleware throw
   * instead of answering 403.
   */
  lemma MalformedTextThrows(c: Config, req: Request, jar: map<string, string>, e: Entropy, hash: HashFn)
    requires !Excluded(c.excludePathPrefixes, req.pathname) && req.verb !in c.ignoreMethods
    requires c.token.value.None? && TokenHeader in req.headers
    requires (c.cookie.name in jar && Base64.Decode(jar[c.cookie.name]).None?) || Base64.Decode(req.headers[TokenHeader]).None?
    ensures Middleware(c, req, jar, e, hash) == MiddlewareThrew
  {
    Json.StringConvertsToItself(req.headers[TokenHeader]);
  }

  /** A well-formed but wrong token is answered with 403. */
  lemma WrongTokenForbidden(c: Config, req: Request, jar: map<string, string>, e: Entropy, hash: HashFn)
    requires !Excluded(c.excludePathPrefixes, req.pathname) && req.verb !in c.ignoreMethods
    requires c.token.value.None? && TokenHeader in req.headers && c.cookie.name !in jar
    requires Base64.Decode(req.headers[TokenHeader]).Some?
    requires !IsMintedFrom(hash, Base64.Decode(req.headers[TokenHeader]).value, e.secret)
    ensures Middleware(c, req, jar, e, hash) == Forbidden
  {
    var text := req.headers[TokenHeader];
    Json.StringConvertsToItself(text);
    AcceptedIffMinted(hash, Base64.Decode(text).value, e.secret);
  }
}

/**
 * The SvelteKit handle (`src/sveltekit.ts`): a failed verification answers
 * 403 without resolving the event; otherwise the fresh token is stored in
 * `locals.csrfToken` and the event is resolved.
 */
module SvelteHandle {
  import opened Prelude
  import opened Http
  import opened Codec
  import opened Pipeline
  import opened LegacyConfig

  /** `event.cookies.set(config.cookie.name, value, config.cookie)`. */
  datatype Cookie = Cookie(name: string, value: string, options: CookieOptions)

  datatype Handled =
    | Resolved(setCookie: Option<Cookie>, csrfToken: Option<string>)
    | Forbidden(setCookie: Option<Cookie>)
    | HandleThrew

  function SettingsOf(c: Config): Settings {
    Settings(c.excludePathPrefixes, c.ignoreMethods, c.cookie.name, c.token.value)
  }

  function CookieOf(c: Config, setCookie: Option<string>): Option<Cookie> {
    if setCookie.Some? then Some(Cookie(c.cookie.name, setCookie.value, c.cookie)) else None
  }

  /** `createHandle(opts)`'s function. */
  function Handle(c: Config, req: Request, jar: map<string, string>, e: Entropy, hash: HashFn): (r: Handled)
    ensures Excluded(c.excludePathPrefixes, req.pathname) ==> r == Resolved(None, None)
    ensures r.Forbidden? ==> req.verb !in c.ignoreMethods
    ensures r.Resolved? && r.csrfToken.Some? ==> AtouRaising(r.csrfToken.value).Some?
    ensures r.Resolved? && r.csrfToken.None? ==> Excluded(c.excludePathPrefixes, req.pathname)
    ensures !r.HandleThrew? && r.setCookie.Some? ==> r.setCookie.value.name == c.cookie.name && c.cookie.name !in jar
    ensures !r.HandleThrew? && !Excluded(c.excludePathPrefixes, req.pathname) && c.cookie.name !in jar ==>
              r.setCookie == Some(Cookie(c.cookie.name, Utoa(e.secret), c.cookie))
    ensures r.Forbidden? <==>
              !Excluded(c.excludePathPrefixes, req.pathname) && FailsCheck(Intermediate, SettingsOf(c), req, jar, e, hash)
    ensures r.HandleThrew? <==>
              !Excluded(c.excludePathPrefixes, req.pathname) && Raises(Intermediate, SettingsOf(c), req, jar, e, hash)
    ensures r.Resolved? && !Excluded(c.excludePathPrefixes, req.pathname) ==>
              && Run(Intermediate, SettingsOf(c), req, jar, e, hash).Issue?
              && r.csrfToken == Some(Run(Intermediate, SettingsOf(c), req, jar, e, hash).token)
  {
    match Run(Intermediate, SettingsOf(c), req, jar, e, hash)
    case PassThrough => Resolved(None, None)
    case Reject(sc) => Forbidden(CookieOf(c, sc))
    case Issue(sc, token) => Resolved(CookieOf(c, sc), Some(token))
    case Fault(_) => HandleThrew
  }

  /** A token the handle puts in `locals` resolves the next event that echoes it. */
  lemma LocalsTokenAccepted(c: Config, first: Request, jar: map<string, string>, e1: Entropy,
                            next: Request, e2: Entropy, hash: HashFn)
    requires |e1.salt| <= 255 && c.token.value.None?
    requires Handle(c, first, jar, e1, hash).Resolved? && Handle(c, first, jar, e1, hash).csrfToken.Some?
    requires !Excluded(c.excludePathPrefixes, next.pathname)
    ensures var h := Handle(c, first, jar, e1, hash);
      var jar' := if h.setCookie.Some? then jar[c.cookie.name := h.setCookie.value.value] else jar;
      Handle(c, WithTokenHeader(next, h.csrfToken.value), jar', e2, hash).Resolved?
  {
    var s := SettingsOf(c);
    var o := Run(Intermediate, s, first, jar, e1, hash);
    EchoedTokenAccepted(Intermediate, s, first, jar, e1, next, e2, hash);
  }
}

/**
 * The original middleware (`index.js`), over the typed view of an
 * `initConfig` result. It has no path exclusion, and a `null` token (a
 * form without a `csrf_token` field) is an `Error` value.
 */
module OriginalMiddleware {
  import opened Prelude
  import opened Json
  import opened Http
  import opened Codec
  import opened Pipeline
  import opened OriginalConfig

  /** `response.cookies.set(config.cookie.name, value, config.cookie)`. */
  datatype Cookie = Cookie(name: string, value: string, options: Object)

  datatype Handled =
    | Handled(setCookie: Option<Cookie>, tokenHeader: Option<(string, string)>, error: bool)
    | Threw

  function SettingsOf(v: View): Settings {
    Settings([], v.ignoreMethods, v.cookieName, v.value)
  }

  /** `CreateMiddleware(opts)`'s `csrfProtect`. */
  function CsrfProtect(v: View, req: Request, jar: map<string, string>, e: Entropy, hash: HashFn): (r: Handled)
    ensures r.Handled? && r.error ==> r.tokenHeader.None? && req.verb !in v.ignoreMethods
    ensures r.Handled? && !r.error ==> r.tokenHeader.Some? && r.tokenHeader.value.0 == v.responseHeader
    ensures r.Handled? && r.tokenHeader.Some? ==> AtouRaising(r.tokenHeader.value.1).Some?
    ensures r.Handled? ==> (r.setCookie.Some? <==> v.cookieName !in jar)
    ensures r.Handled? && v.cookieName !in jar ==> r.setCookie == Some(Cookie(v.cookieName, Utoa(e.secret), v.cookie))
    ensures r.Handled? && r.error <==> FailsCheck(Original, SettingsOf(v), req, jar, e, hash)
    ensures r.Threw? <==> Raises(Original, SettingsOf(v), req, jar, e, hash)
  {
    var cookie := if v.cookieName in jar then None else Some(Cookie(v.cookieName, Utoa(e.secret), v.cookie));
    match Run(Original, SettingsOf(v), req, jar, e, hash)
    case PassThrough => Handled(None, None, false)
    case Reject(_) => Handled(cookie, None, true)
    case Issue(_, token) => Handled(cookie, Some((v.responseHeader, token)), false)
    case Fault(_) => Threw
  }

  /** A url-encoded form without a `csrf_token` field is an error, whatever the cookie. */
  lemma MissingFormFieldRejected(v: View, req: Request, jar: map<string, string>, e: Entropy, hash: HashFn)
    requires v.value.None? && req.verb !in v.ignoreMethods && TokenHeader !in req.headers
    requires "content-type" in req.headers && req.headers["content-type"] == FormUrlEncoded
    requires req.form.Some? && forall i :: 0 <= i < |req.form.value| ==> req.form.value[i].0 != Extractor.TokenField
    requires v.cookieName !in jar
    ensures CsrfProtect(v, req, jar, e, hash) == Handled(Some(Cookie(v.cookieName, Utoa(e.secret), v.cookie)), None, true)
  {
    assert Extractor.FormLookup(req.form.value, Extractor.ExactKey, Extractor.TokenField).None?;
    assert ContentType(req) == FormUrlEncoded;
    assert Extractor.GetTokenStringOriginal(req, None) == Found(Js(JNull));
    var o := Run(Original, SettingsOf(v), req, jar, e, hash);
    assert o == Reject(Some(Utoa(e.secret)));
  }

  /** A url-encoded form whose `csrf_token` is a file is sent to `atob` as "[object File]", which raises. */
  lemma FileTokenThrows(v: View, req: Request, jar: map<string, string>, e: Entropy, hash: HashFn)
    requires v.value.None? && req.verb !in v.ignoreMethods && TokenHeader !in req.headers
    requires "content-type" in req.headers && req.headers["content-type"] == FormUrlEncoded
    requires req.form == Some([(Extractor.TokenField, FormFile)])
    requires v.cookieName !in jar
    ensures CsrfProtect(v, req, jar, e, hash) == Threw
  {
    assert Extractor.KeyMatches(Extractor.ExactKey, req.form.value[0].0, Extractor.TokenField);
    assert ContentType(req) == FormUrlEncoded;
    assert Extractor.GetTokenStringOriginal(req, None) == Found(FileValue);
    var text := ToJsString(FileValue);
    assert text[0] == '[' && !Base64.IsAlphabetChar(text[0]);
    Base64.ForeignCharacterRejected(text, 0);
  }

  /** Excluded paths do not exist here: every request is checked the same way. */
  lemma NoExclusion(v: View, req: Request, jar: map<string, string>, e: Entropy, hash: HashFn)
    ensures !Run(Original, SettingsOf(v), req, jar, e, hash).PassThrough?
  {
  }

  /** How the decision's outcome surfaces through the middleware. */
  lemma HandledOfOutcome(v: View, req: Request, jar: map<string, string>, e: Entropy, hash: HashFn)
    ensures var o := Run(Original, SettingsOf(v), req, jar, e, hash);
      var h := CsrfProtect(v, req, jar, e, hash);
      && (h.Handled? && !h.error <==> o.Issue?)
      && (o.Issue? ==> h.tokenHeader == Some((v.responseHeader, o.token)))
      && (h.Handled? && h.setCookie.Some? ==> o.setCookie == Some(h.setCookie.value.value))
  {
  }

  /** A token the middleware issues is accepted on the next request that echoes it. */
  lemma ViewEchoAccepted(v: View, first: Request, jar: map<string, string>, e1: Entropy,
                         next: Request, e2: Entropy, hash: HashFn)
    requires v.value.None? && |e1.salt| <= 255
    requires CsrfProtect(v, first, jar, e1, hash).Handled? && !CsrfProtect(v, first, jar, e1, hash).error
    ensures var h := CsrfProtect(v, first, jar, e1, hash);
      var jar' := if h.setCookie.Some? then jar[v.cookieName := h.setCookie.value.value] else jar;
      var r := CsrfProtect(v, WithTokenHeader(next, h.tokenHeader.value.1), jar', e2, hash);
      r.Handled? && !r.error
  {
    var s := SettingsOf(v);
    var o := Run(Original, s, first, jar, e1, hash);
    var h := CsrfProtect(v, first, jar, e1, hash);
    HandledOfOutcome(v, first, jar, e1, hash);
    var jar' := if h.setCookie.Some? then jar[v.cookieName := h.setCookie.value.value] else jar;
    assert jar' == Store(jar, v.cookieName, o.setCookie);
    EchoedTokenAccepted(Original, s, first, jar, e1, next, e2, hash);
    HandledOfOutcome(v, WithTokenHeader(next, o.token), jar', e2, hash);
  }
}

=== FILE: json.dfy ===
/**
 * JavaScript values as the token extractor sees them: parsed JSON, plus the
 * `undefined` and `File` values that form data and property reads produce,
 * with the two JavaScript coercions the extractor and `atob` apply to them
 * (truthiness and `String(v)`).
 */
module Json {

  /**
   * A parsed JSON value. A number keeps the text JavaScript's `String` gives
   * it, which is all the model ever does with a number. Objects keep the last
   * value of a repeated key, as `JSON.parse` does.
   */
  datatype Json =
    | JNull
    | JBool(b: bool)
    | JNumber(text: string)
    | JString(s: string)
    | JArray(items: seq<Json>)
    | JObject(fields: map<string, Json>)

  /** A JavaScript value the extractor can return. */
  datatype Value = Undefined | FileValue | Js(json: Json)

  function Str(s: string): Value {
    Js(JString(s))
  }

  predicate IsString(v: Value) {
    v.Js? && v.json.JString?
  }

  /** JavaScript truthiness of a JSON value (JSON has no `NaN`). */
  predicate Truthy(j: Json) {
    match j
    case JNull => false
    case JBool(b) => b
    case JNumber(t) => t != "0" && t != "-0"
    case JString(s) => s != ""
    case JArray(_) => true
    case JObject(_) => true
  }

  /** `a.join(",")`. */
  function Join(parts: seq<string>): string {
    if |parts| == 0 then ""
    else if |parts| == 1 then parts[0]
    else parts[0] + "," + Join(parts[1..])
  }

  /** `String(j)`; inside an array `null` becomes the empty string. */
  function JsonToString(j: Json): string {
    match j
    case JNull => "null"
    case JBool(b) => if b then "true" else "false"
    case JNumber(t) => t
    case JString(s) => s
    case JArray(items) =>
      Join(seq(|items|, i requires 0 <= i < |items| =>
        if items[i].JNull? then "" else JsonToString(items[i])))
    case JObject(_) => "[object Object]"
  }

  /** `String(v)`, the conversion `atob` applies to its argument. */
  function ToJsString(v: Value): string {
    match v
    case Undefined => "undefined"
    case FileValue => "[object File]"
    case Js(j) => JsonToString(j)
  }

  /** A string value converts to itself. */
  lemma StringConvertsToItself(s: string)
    ensures ToJsString(Str(s)) == s
  {
  }
}

/**
 * The abstract request the extractor and the protect functions read: method,
 * path, headers, and the body in each parsed form the code may ask for.
 */
module Http {
  import opened Prelude
  import opened Json

  /** A form entry value: a plain string or an uploaded file. */
  datatype FormValue = FormText(s: string) | FormFile

  /**
   * `verb` is the HTTP method. Header names are lower-case, as `Headers` stores them. `form` is the body
   * read by `formData()` and `json` the body parsed as JSON (by `json()` or
   * `JSON.parse(text)`); `None` means that parse throws. `text` is the raw body.
   */
  datatype Request = Request(
    verb: string,
    pathname: string,
    headers: map<string, string>,
    form: Option<seq<(string, FormValue)>>,
    json: Option<Json>,
    text: string)

  /** A value, or the exception the promise is rejected with. */
  datatype Extraction = Found(value: Value) | Raised

  /** A configured `token.value` function. */
  type Override = Request -> Extraction

  const TokenHeader := "x-csrf-token"
  const FormUrlEncoded := "application/x-www-form-urlencoded"
  const Multipart := "multipart/form-data"
  const JsonType := "application/json"
  const LdJsonType := "application/ld+json"
  const TextPlain := "text/plain"

  /** `headers.get(name)`. */
  function Header(req: Request, name: string): (r: Option<string>)
    ensures r.Some? <==> name in req.headers
  {
    Lookup(req.headers, name)
  }

  /** `headers.get('content-type') || 'text/plain'`: an empty header counts as missing. */
  function ContentType(req: Request): (ct: string)
    ensures ct != ""
    ensures "content-type" in req.headers && req.headers["content-type"] != "" ==> ct == req.headers["content-type"]
    ensures !("content-type" in req.headers && req.headers["content-type"] != "") ==> ct == TextPlain
  {
    match Header(req, "content-type")
    case Some(ct) => if ct != "" then ct else TextPlain
    case None => TextPlain
  }
}

=== FILE: pipeline.dfy ===
/**
 * The per-request decision every protect function makes, once for all three
 * generations: skip excluded paths; read the secret cookie or mint a secret
 * and set the cookie; unless the method is ignored, extract the submitted
 * token and verify it against the secret; then mint a fresh token.
 *
 * The generations differ in four places: the original one has no path
 * exclusion and rejects a `null` token outright; its and the intermediate
 * one's `atou` raises on malformed base64 where the current one yields no
 * bytes; and each has its own extractor.
 */
module Pipeline {
  import opened Prelude
  import opened Json
  import opened Http
  import opened Codec
  import Extractor

  datatype Generation = Current | Intermediate | Original

  /** What the decision reads from the configuration. */
  datatype Settings = Settings(
    excludePathPrefixes: seq<string>,
    ignoreMethods: seq<string>,
    cookieName: string,
    override: Option<Override>)

  /**
   * The random bytes one request draws: `createSecret` (used only when the
   * cookie is missing) and `_createSalt` for the fresh token.
   */
  datatype Entropy = Entropy(secret: seq<byte>, salt: seq<byte>)

  /**
   * How the request ends. `setCookie` is the value of the secret cookie set
   * along the way. `Reject` is a failed verification, `Fault` any other
   * exception (a throwing override, an unparsable body, `atob`).
   */
  datatype Outcome =
    | PassThrough
    | Reject(setCookie: Option<string>)
    | Issue(setCookie: Option<string>, token: string)
    | Fault(setCookie: Option<string>)

  /** Some configured prefix starts the path. */
  predicate Excluded(prefixes: seq<string>, path: string) {
    exists i :: 0 <= i < |prefixes| && StartsWith(path, prefixes[i])
  }

  function Extract(g: Generation, req: Request, override: Option<Override>): Extraction {
    match g
    case Current => Extractor.GetTokenString(req, override)
    case Intermediate => Extractor.GetTokenStringLegacy(req, override)
    case Original => Extractor.GetTokenStringOriginal(req, override)
  }

  /** The generation's `atou`; `None` when it raises. */
  function DecodeText(g: Generation, s: string): (r: Option<seq<byte>>)
    ensures g == Current ==> r == Some(Atou(s))
    ensures g != Current ==> r == AtouRaising(s)
  {
    if g == Current then Some(Atou(s)) else AtouRaising(s)
  }

  function Verify(g: Generation, hash: HashFn, token: seq<byte>, secret: seq<byte>): bool {
    if g == Original then VerifyTokenUnguarded(hash, token, secret) else VerifyToken(hash, token, secret)
  }

  /** The secret cookie's value when the request carries one. */
  function CookieValue(s: Settings, jar: map<string, string>): Option<string> {
    Lookup(jar, s.cookieName)
  }

  /** The secret the request is checked against; `None` when decoding the cookie raises. */
  function SecretOf(g: Generation, s: Settings, jar: map<string, string>, e: Entropy): Option<seq<byte>> {
    match CookieValue(s, jar)
    case None => Some(e.secret)
    case Some(text) => DecodeText(g, text)
  }

  /** The token text the request submits, verified against `secret`; `None` for an exception. */
  function Check(g: Generation, s: Settings, req: Request, secret: seq<byte>, hash: HashFn): Option<bool> {
    match Extract(g, req, s.override)
    case Raised => None
    case Found(v) =>
      if g == Original && v == Js(JNull) then Some(false)
      else
        match DecodeText(g, ToJsString(v))
        case None => None
        case Some(token) => Some(Verify(g, hash, token, secret))
  }

  /** A checked method whose submitted token is read and decoded but does not verify. */
  predicate FailsCheck(g: Generation, s: Settings, req: Request, jar: map<string, string>, e: Entropy, hash: HashFn) {
    && SecretOf(g, s, jar, e).Some?
    && req.verb !in s.ignoreMethods
    && Check(g, s, req, SecretOf(g, s, jar, e).value, hash) == Some(false)
  }

  /** The secret cookie cannot be decoded, or a checked method's token cannot be read or decoded. */
  predicate Raises(g: Generation, s: Settings, req: Request, jar: map<string, string>, e: Entropy, hash: HashFn) {
    || SecretOf(g, s, jar, e).None?
    || (req.verb !in s.ignoreMethods && Check(g, s, req, SecretOf(g, s, jar, e).value, hash).None?)
  }

  /** The protect function's decision for one request. */
  function Run(g: Generation, s: Settings, req: Request, jar: map<string, string>, e: Entropy, hash: HashFn): (o: Outcome)
    ensures o.PassThrough? <==> g != Original && Excluded(s.excludePathPrefixes, req.pathname)
    ensures !o.PassThrough? ==> (o.setCookie.Some? <==> s.cookieName !in jar)
    ensures !o.PassThrough? && o.setCookie.Some? ==> Atou(o.setCookie.value) == e.secret
    ensures o.Issue? && s.cookieName in jar ==> AtouRaising(o.token).Some?
    ensures o.Issue? ==> SecretOf(g, s, jar, e).Some?
    ensures o.Issue? ==> Atou(o.token) == CreateToken(hash, SecretOf(g, s, jar, e).value, e.salt)
    ensures o.Issue? && req.verb !in s.ignoreMethods ==> Check(g, s, req, SecretOf(g, s, jar, e).value, hash) == Some(true)
    ensures !o.PassThrough? && s.cookieName !in jar ==> o.setCookie == Some(Utoa(e.secret))
    ensures o.Reject? <==> !o.PassThrough? && FailsCheck(g, s, req, jar, e, hash)
    ensures o.Fault? <==> !o.PassThrough? && Raises(g, s, req, jar, e, hash)
  {
    if g != Original && Excluded(s.excludePathPrefixes, req.pathname) then PassThrough
    else
      var setCookie := if s.cookieName in jar then None else Some(Utoa(e.secret));
      match SecretOf(g, s, jar, e)
      case None => Fault(setCookie)
      case Some(secret) =>
        var issued := Utoa(CreateToken(hash, secret, e.salt));
        if req.verb in s.ignoreMethods then Issue(setCookie, issued)
        else
          match Check(g, s, req, secret, hash)
          case None => Fault(setCookie)
          case Some(true) => Issue(setCookie, issued)
          case Some(false) => Reject(setCookie)
  }

  /** The request that echoes an issued token in the `x-csrf-token` header. */
  function WithTokenHeader(req: Request, token: string): Request {
    req.(headers := req.headers[TokenHeader := token])
  }

  /** The cookie jar after the browser stores the cookie a response set. */
  function Store(jar: map<string, string>, name: string, setCookie: Option<string>): map<string, string> {
    if setCookie.Some? then jar[name := setCookie.value] else jar
  }

  /**
   * Double submit: a token issued for a request verifies on any later
   * non-excluded request that echoes it in the header, once the browser has
   * stored the cookie that came with it.
   */
  lemma EchoedTokenAccepted(g: Generation, s: Settings, first: Request, jar: map<string, string>,
                            e1: Entropy, next: Request, e2: Entropy, hash: HashFn)
    requires |e1.salt| <= 255
    requires Run(g, s, first, jar, e1, hash).Issue?
    requires s.override.None?
    requires g == Original || !Excluded(s.excludePathPrefixes, next.pathname)
    ensures var o := Run(g, s, first, jar, e1, hash);
      var jar' := Store(jar, s.cookieName, o.setCookie);
      Run(g, s, WithTokenHeader(next, o.token), jar', e2, hash).Issue?
  {
    var o := Run(g, s, first, jar, e1, hash);
    var jar' := Store(jar, s.cookieName, o.setCookie);
    var secret := SecretOf(g, s, jar, e1).value;
    assert SecretOf(g, s, jar', e2) == Some(secret) by {
      if s.cookieName !in jar {
        assert CookieValue(s, jar') == Some(Utoa(e1.secret));
        assert Atou(Utoa(e1.secret)) == e1.secret;
      }
    }
    var req := WithTokenHeader(next, o.token);
    var minted := CreateToken(hash, secret, e1.salt);
    assert o.token == Utoa(minted);
    IssuedTokenVerifies(g, s, req, secret, e1.salt, hash);
    assert Check(g, s, req, secret, hash) == Some(true);
  }

  /** An issued token, submitted in the header, passes `Check` against the secret it was minted from. */
  lemma IssuedTokenVerifies(g: Generation, s: Settings, req: Request, secret: seq<byte>, salt: seq<byte>, hash: HashFn)
    requires |salt| <= 255 && s.override.None?
    requires TokenHeader in req.headers && req.headers[TokenHeader] == Utoa(CreateToken(hash, secret, salt))
    ensures Check(g, s, req, secret, hash) == Some(true)
  {
    var minted := CreateToken(hash, secret, salt);
    var text := Utoa(minted);
    assert Extract(g, req, s.override) == Found(Str(text));
    StringConvertsToItself(text);
    assert DecodeText(g, text) == Some(minted);
    VerifyCreatedToken(hash, secret, salt);
    UnguardedAgrees(hash, minted, secret);
  }

  /**
   * A token text shorter than 32 characters never passes verification in
   * the current generation: it decodes to fewer than 22 bytes.
   */
  lemma ShortTokenRejected(s: Settings, req: Request, jar: map<string, string>, e: Entropy, hash: HashFn, token: string)
    requires TokenHeader in req.headers && req.headers[TokenHeader] == token && |token| < 32
    requires s.override.None? && req.verb !in s.ignoreMethods
    requires !Excluded(s.excludePathPrefixes, req.pathname)
    ensures Run(Current, s, req, jar, e, hash).Reject?
  {
    StringConvertsToItself(token);
    AtouShortText(token);
  }

  /**
   * Whatever the extractor finds, a request it lets through carries a token
   * minted from the secret (up to the algorithm byte).
   */
  lemma AcceptedTokensAreMinted(g: Generation, s: Settings, req: Request, jar: map<string, string>, e: Entropy, hash: HashFn)
    requires Run(g, s, req, jar, e, hash).Issue? && req.verb !in s.ignoreMethods
    ensures var v := Extract(g, req, s.override).value;
      DecodeText(g, ToJsString(v)).Some?
      && IsMintedFrom(hash, DecodeText(g, ToJsString(v)).value, SecretOf(g, s, jar, e).value)
  {
    var v := Extract(g, req, s.override).value;
    var token := DecodeText(g, ToJsString(v)).value;
    var secret := SecretOf(g, s, jar, e).value;
    UnguardedAgrees(hash, token, secret);
    AcceptedIffMinted(hash, token, secret);
  }

  /** An excluded path never touches the cookie jar, the body or the entropy. */
  lemma ExcludedIgnoresEverything(g: Generation, s: Settings, req: Request, req': Request,
                                  jar: map<string, string>, jar': map<string, string>, e: Entropy, e': Entropy, hash: HashFn)
    requires g != Original && Excluded(s.excludePathPrefixes, req.pathname) && req'.pathname == req.pathname
    ensures Run(g, s, req, jar, e, hash) == Run(g, s, req', jar', e', hash) == PassThrough
  {
  }

  /** Only the configured cookie is read. */
  lemma OnlySecretCookieRead(g: Generation, s: Settings, req: Request, jar: map<string, string>,
                             jar': map<string, string>, e: Entropy, hash: HashFn)
    requires (s.cookieName in jar <==> s.cookieName in jar')
    requires s.cookieName in jar ==> jar[s.cookieName] == jar'[s.cookieName]
    ensures Run(g, s, req, jar, e, hash) == Run(g, s, req, jar', e, hash)
  {
  }

  /** Ignored methods are never checked: the token is issued unless decoding the cookie raises. */
  lemma IgnoredMethodIssues(g: Generation, s: Settings, req: Request, jar: map<string, string>, e: Entropy, hash: HashFn)
    requires req.verb in s.ignoreMethods
    requires g == Original || !Excluded(s.excludePathPrefixes, req.pathname)
    ensures SecretOf(g, s, jar, e).Some? <==> Run(g, s, req, jar, e, hash).Issue?
    ensures g == Current ==> Run(g, s, req, jar, e, hash).Issue?
  {
  }

  /**
   * The cookie is set before verification: a request without a cookie that
   * fails verification still receives a fresh secret cookie.
   */
  lemma RejectionStillSetsCookie(g: Generation, s: Settings, req: Request, jar: map<string, string>, e: Entropy, hash: HashFn)
    requires s.cookieName !in jar
    requires Run(g, s, req, jar, e, hash).Reject?
    ensures Run(g, s, req, jar, e, hash).setCookie == Some(Utoa(e.secret))
  {
  }

  /**
   * A present cookie is never replaced. In the current generation a cookie
   * that is not base64 acts as the empty secret; in the others it raises.
   */
  lemma MalformedCookie(g: Generation, s: Settings, req: Request, jar: map<string, string>, e: Entropy, hash: HashFn)
    requires s.cookieName in jar && Base64.Decode(jar[s.cookieName]).None?
    requires g == Original || !Excluded(s.excludePathPrefixes, req.pathname)
    ensures Run(g, s, req, jar, e, hash).setCookie.None?
    ensures g == Current ==> SecretOf(g, s, jar, e) == Some([])
    ensures g != Current ==> Run(g, s, req, jar, e, hash) == Fault(None)
  {
  }
}

=== FILE: prelude.dfy ===
/** Small shared vocabulary: bytes, optional values and string prefixes. */
module Prelude {

  /** One element of a JavaScript `Uint8Array`. */
  type byte = x: int | 0 <= x < 256

  datatype Option<+T> = None | Some(value: T) {
    function GetOr(default: T): T {
      match this
      case Some(v) => v
      case None => default
    }
  }

  /** A value, or the error a JavaScript constructor would throw. */
  datatype Result<+T, +E> = Ok(value: T) | Err(error: E)

  /** JavaScript `String.prototype.startsWith`. */
  predicate StartsWith(s: string, prefix: string) {
    |prefix| <= |s| && s[..|prefix|] == prefix
  }

  /** A map lookup that reports absence instead of requiring presence. */
  function Lookup<K, V>(m: map<K, V>, k: K): (r: Option<V>)
    ensures r.Some? <==> k in m
    ensures r.Some? ==> r.value == m[k]
  {
    if k in m then Some(m[k]) else None
  }
}
